=== FILE: README.md ===
# Project board: a verified model of its core logic

The application is a project-management board on top of a hosted Postgres
backend. Projects have calendar tasks and kanban cards. A settings page edits
the user's profile and password. An invite dialog checks e-mail addresses. A
sign-in page sends users on their way. An edge function e-mails the
owner of every task due today.

This Dafny project models the decision logic of those pieces and proves what it
promises. The backend, the auth service and the mail service are not modelled.
Each call to them becomes a parameter carrying its outcome. The per-task
lookups of the reminder function are functions of the id they look up. The handlers
return the records or calls they would send.

Modules, one per source file, plus three shared ones:

- `Text` (`text.dfy`): JavaScript string operations the code relies on.
  These are `trim`, truthiness, `includes`, `toLowerCase`, `String(n)` and
  `padStart(2, '0')`.
- `Seqs` (`seqs.dfy`): `filter` and `slice(0, n)` on sequences.
- `Records` (`records.dfy`): the `project_tasks` and `cards` rows with their
  optional completion columns, and the partial update objects written back.
- `TaskCalendar` (`task_calendar.dfy`): the calendar's records, and a
  `CalendarView` class holding its component state.
- `KanbanCard` (`kanban_card.dfy`): a card's checkbox update, tag row and
  priority dot.
- `ProjectDashboard` (`project_dashboard.dfy`): the overview counts and
  percentages.
- `Settings` (`settings.dfy`): the password checks, the profile record, and a
  `SettingsPage` class.
- `InviteDialog` (`invite_dialog.dfy`): the e-mail pattern, and an
  `InviteForm` class.
- `Auth` (`auth.dfy`): sign-in error classification, and an `AuthPage` class.
- `DeadlineReminder` (`deadline_reminder.dfy`): the date string, the reminder
  loop and the request handler.

Modelling conventions:

- A nullable or optional column is an `Option`.
- A key of an update object is a `Field`: `Keep` when the key is absent, or
  `Write(v)`.
- Dates and times are strings, or integer milliseconds together with a `parse`
  function standing for `new Date(...)`.

## Model

| member | source | states |
|---|---|---|
| Text.Trim | src/components/TaskCalendar.tsx:63 | `trim()` result is empty exactly when the input is all whitespace; otherwise it neither starts nor ends with whitespace |
| Text.TrimIsMiddle | src/components/TaskCalendar.tsx:63 | `trim()` keeps the middle of the string: what it drops before and after is all whitespace |
| Text.TrimIdempotent | src/pages/Settings.tsx:80-82 | trimming twice equals trimming once |
| Text.ToLower | src/pages/Auth.tsx:43 | lower-casing keeps the length and maps every character |
| Text.ToLowerIdempotent | src/pages/Auth.tsx:43 | lower-casing twice equals lower-casing once |
| Text.Contains | src/pages/Auth.tsx:44-50 | `includes`: the empty string occurs in every string, and nothing longer than the string occurs in it |
| Text.NatToString | src/components/KanbanCard.tsx:122 | decimal digits with no leading zero, a single digit exactly below ten |
| Text.ParseNatToString | src/components/KanbanCard.tsx:122 | reading the rendered digits back gives the number |
| Text.IntToString | supabase/functions/task-deadline-reminder/index.ts:24-27 | a minus sign exactly for negative numbers, followed by the decimal digits of the magnitude without leading zeros, which read back as the number |
| Text.IntToStringInjective | supabase/functions/task-deadline-reminder/index.ts:24-27 | distinct integers render differently |
| Text.NatToStringFourDigits | supabase/functions/task-deadline-reminder/index.ts:24 | four-digit years render as four characters |
| Text.PadTwo | supabase/functions/task-deadline-reminder/index.ts:25-26 | `padStart(2, '0')` gives only digits, at least two of them, exactly two below 100, reading back as the number |
| Seqs.Filter | src/components/TaskCalendar.tsx:198 | the result holds exactly the elements that satisfy the test, and is no longer than the input |
| Seqs.FilterAppend | src/components/TaskCalendar.tsx:198 | filtering distributes over concatenation, so order is kept |
| Seqs.FilterCountsPositions | src/components/ProjectDashboard.tsx:25-43 | `filter(p).length` is the number of positions whose element satisfies `p` |
| Seqs.FilterExclusiveBound | src/components/ProjectDashboard.tsx:25-40 | three filters with pairwise exclusive tests select at most as many elements as there are |
| Seqs.Take | src/components/ProjectDashboard.tsx:148 | `slice(0, n)` returns the first min(n, length) elements, unchanged |
| Records.EmptyToNull | src/components/TaskCalendar.tsx:70-73 | `s \|\| null` is null exactly for the empty string and is `s` otherwise |
| Records.NullToEmpty | src/components/TaskCalendar.tsx:181-183 | `v \|\| ''` is `''` for null and `v` otherwise |
| Records.ApplyTaskPatch | src/components/TaskCalendar.tsx:157-162 | `update(...).eq('id', id)` keeps the row's id |
| Records.ApplyCardPatch | src/components/KanbanCard.tsx:32-39 | a card update keeps the card's id |
| TaskCalendar.CreateRecord | src/components/TaskCalendar.tsx:62-76 | no insert exactly when the title is blank. Otherwise: project and selected day, trimmed non-empty title, trimmed description or null, times with `''` as null, the form status, `completed` false |
| TaskCalendar.EditForm | src/components/TaskCalendar.tsx:177-186 | the edit form shows the title, and the stored description, times and non-empty status as they are; null description and times show as `''`; a missing or empty status shows as `pending` |
| TaskCalendar.UpdateRecord | src/components/TaskCalendar.tsx:99-111 | no update exactly when nothing is being edited or the title is blank. Otherwise it targets the edited id. It writes the trimmed title, the trimmed description or null when blank, the times with `''` as null, the status and `updated_at`. It never writes completion, date or project |
| TaskCalendar.ToggleRecord | src/components/TaskCalendar.tsx:153-162 | the checkbox writes the flag, a completion time exactly when checked, status `completed`/`pending` and `updated_at`, and nothing else |
| TaskCalendar.ToggleKeepsTask | src/components/TaskCalendar.tsx:157-162 | after a toggle the completion columns agree, the status is `completed` exactly when checked, and every other column is unchanged |
| TaskCalendar.ToggleOnThenOff | src/components/TaskCalendar.tsx:157-162 | checking then unchecking leaves the task incomplete, with no completion time and `pending` |
| TaskCalendar.UpdateKeepsCompletion | src/components/TaskCalendar.tsx:104-111 | editing a task keeps its completion, completion time, date and project |
| TaskCalendar.CreateThenEdit | src/components/TaskCalendar.tsx:67-185 | a created task is stored normalised; opening it for editing shows the trimmed title and description, the same times and the same status |
| TaskCalendar.EditThenSaveIsNoOp | src/components/TaskCalendar.tsx:99-185 | saving an unchanged edit form of a normalised task only moves `updated_at` |
| TaskCalendar.SelectedDateTasks | src/components/TaskCalendar.tsx:198 | the day's list holds exactly the tasks dated on the selected day |
| TaskCalendar.DatesWithTasks | src/components/TaskCalendar.tsx:199 | `datesWithTasks` holds every task's date and nothing else |
| TaskCalendar.MarkedIffTasksOnDay | src/components/TaskCalendar.tsx:198-236 | a day is marked in the calendar exactly when its task list is non-empty, i.e. when some task is dated on it |
| TaskCalendar.SelectedDateTasksAppend | src/components/TaskCalendar.tsx:198 | the day's list keeps the task list's order |
| TaskCalendar.CalendarView.constructor | src/components/TaskCalendar.tsx:24-35 | the initial state: no tasks, today selected, dialog closed, blank form, loading |
| TaskCalendar.CalendarView.SelectedTasks | src/components/TaskCalendar.tsx:198 | a task is shown exactly when it is in the list and dated on the selected day |
| TaskCalendar.CalendarView.DialogOpen | src/components/TaskCalendar.tsx:341 | the dialog is open exactly while creating or editing |
| TaskCalendar.CalendarView.LoadTasks | src/components/TaskCalendar.tsx:39-58 | a successful query replaces the list and a failed one keeps it; loading ends either way |
| TaskCalendar.CalendarView.SelectDate | src/components/TaskCalendar.tsx:235 | picking a day selects it; a cleared selection is ignored |
| TaskCalendar.CalendarView.OpenCreateDialog | src/components/TaskCalendar.tsx:214 | the create dialog opens |
| TaskCalendar.CalendarView.OpenEditDialog | src/components/TaskCalendar.tsx:177-186 | the task is being edited and the form shows its edit form |
| TaskCalendar.CalendarView.CloseDialog | src/components/TaskCalendar.tsx:187-197 | the dialog closes, editing ends and the form is blank |
| TaskCalendar.CalendarView.HandleCreateTask | src/components/TaskCalendar.tsx:62-98 | sends the create record, and nothing for a blank title. A successful insert resets the form, closes the dialog and requests a reload. Otherwise nothing changes |
| TaskCalendar.CalendarView.HandleUpdateTask | src/components/TaskCalendar.tsx:99-133 | sends the update record. A successful update ends editing, resets the form and requests a reload. Otherwise nothing changes |
| TaskCalendar.CalendarView.HandleCompletionToggle | src/components/TaskCalendar.tsx:153-176 | always sends the toggle record for the task's id; a reload is requested exactly after success |
| KanbanCard.PriorityColor | src/components/KanbanCard.tsx:19-24 | the dot colour of each of the four priorities |
| KanbanCard.PriorityColorInjective | src/components/KanbanCard.tsx:19-24 | the four priorities have four different colours |
| KanbanCard.PriorityDot | src/components/KanbanCard.tsx:100-101 | the dot is drawn exactly for a card with a priority, in that priority's colour |
| KanbanCard.TagRowOf | src/components/KanbanCard.tsx:113-124 | no tag row for no or empty tags; otherwise the first three tags, with a badge exactly when there are more than three, reading `+` followed by the number of the others |
| KanbanCard.TagRowAccountsForAll | src/components/KanbanCard.tsx:113-124 | the shown tags are the first ones in order, and their number plus the badge's number equals the number of tags |
| KanbanCard.ShowsCompletedLine | src/components/KanbanCard.tsx:151 | the completed line shows only for a checked card with a completion time |
| KanbanCard.ToggleRecord | src/components/KanbanCard.tsx:30-39 | the checkbox writes the flag, a completion time exactly when checked, and `updated_at`, and never the column, position or title |
| KanbanCard.ToggleKeepsPlace | src/components/KanbanCard.tsx:30-39 | a toggle changes only the completion columns and `updated_at`, which keeps the card in place with its content; completion columns agree; the completed line shows exactly when checked |
| KanbanCard.ToggleOnThenOff | src/components/KanbanCard.tsx:30-39 | checking then unchecking leaves the card incomplete without a completion time |
| ProjectDashboard.DueTime | src/components/ProjectDashboard.tsx:27-28 | an undated task or one with an empty date has no due time; otherwise it is the parsed date |
| ProjectDashboard.IsUpcoming | src/components/ProjectDashboard.tsx:26-33 | an upcoming task has a non-empty date and is not completed |
| ProjectDashboard.IsOverdue | src/components/ProjectDashboard.tsx:35-40 | an overdue task has a non-empty date, is not completed, and is never also upcoming |
| ProjectDashboard.Percent | src/components/ProjectDashboard.tsx:68 | `Math.round(done / total * 100)` or 0: the nearest integer with halves rounded up; at most 100 when done ≤ total; exactly 100 when all are done |
| ProjectDashboard.DashboardStats | src/components/ProjectDashboard.tsx:25-43 | each count is the length of its filter; each percentage is `Percent` of its count over its total, 0 without items; completed, upcoming and overdue never exceed the total; completed cards never exceed the cards; both percentages lie in [0, 100] |
| ProjectDashboard.DashboardCounts | src/components/ProjectDashboard.tsx:25-43 | each count is the number of positions in the list holding a task or card it counts |
| ProjectDashboard.UpcomingAndOverdueMembership | src/components/ProjectDashboard.tsx:26-40 | upcoming exactly when dated within the coming week and not completed; overdue exactly when dated before now and not completed; undated tasks are neither |
| ProjectDashboard.RecentTasks | src/components/ProjectDashboard.tsx:148 | the first three tasks, or all when fewer |
| ProjectDashboard.RecentCards | src/components/ProjectDashboard.tsx:173 | the first two cards, or all when fewer |
| ProjectDashboard.NoRecentActivity | src/components/ProjectDashboard.tsx:198 | "No recent activity" shows exactly when both recent lists are empty |
| Settings.CheckPasswordChange | src/pages/Settings.tsx:114-137 | checks run in order and only the first failure is reported: missing field, then new password under six characters, then mismatch; passes exactly when all three hold |
| Settings.ProfileRecord | src/pages/Settings.tsx:78-83 | the saved profile has the user's id and each field trimmed, null exactly when blank |
| Settings.FormOf | src/pages/Settings.tsx:53-55 | the form shows each stored profile field, with null as `''` |
| Settings.SaveLoadRoundTrip | src/pages/Settings.tsx:53-83 | after saving, loading shows the trimmed fields; saving that form again stores the same record |
| Settings.SettingsPage.constructor | src/pages/Settings.tsx:21-33 | the initial state: empty form, loading, panel closed |
| Settings.SettingsPage.LoadProfile | src/pages/Settings.tsx:38-66 | without a user nothing happens. A found row fills the form with nulls as `''`. An error or no row leaves the form. Loading ends |
| Settings.SettingsPage.HandleSaveProfile | src/pages/Settings.tsx:73-106 | without a user nothing is sent. Otherwise the trimmed profile record of the form is sent and saving ends false. A reload is requested exactly after a successful upsert |
| Settings.SettingsPage.TogglePasswordPanel | src/pages/Settings.tsx:273 | the panel opens or closes |
| Settings.SettingsPage.HandleChangePassword | src/pages/Settings.tsx:109-176 | a failed check makes no call. Re-authentication with the current password comes first. `updateUser` is called only after it returns no error. Success clears the three fields and closes the panel. Loading ends false when both calls return; a call that throws stops the handler with loading still set and nothing else changed |
| InviteDialog.MatchesInvitePattern | src/components/ProjectInviteDialog.tsx:23 | the pattern matches nothing shorter than five characters |
| InviteDialog.PatternImpliesWellShaped | src/components/ProjectInviteDialog.tsx:23 | an address matching `^[^@]+@[^@]+\.[^@]+$` has one `@`, a non-empty local part and an inner dot after the `@` |
| InviteDialog.WellShapedImpliesPattern | src/components/ProjectInviteDialog.tsx:23 | every such address matches the pattern |
| InviteDialog.PatternIffWellShaped | src/components/ProjectInviteDialog.tsx:23 | the pattern accepts exactly the well-shaped addresses |
| InviteDialog.WrongAtCountRejected | src/components/ProjectInviteDialog.tsx:23 | an address with zero or two or more `@` is rejected |
| InviteDialog.AcceptsInviteEmail | src/components/ProjectInviteDialog.tsx:23 | `handleInvite` accepts exactly the well-shaped addresses |
| InviteDialog.EmptyEmailRejected | src/components/ProjectInviteDialog.tsx:23 | the empty address is rejected |
| InviteDialog.InviteForm.constructor | src/components/ProjectInviteDialog.tsx:16-17 | an empty address, not sending |
| InviteDialog.InviteForm.SetEmail | src/components/ProjectInviteDialog.tsx:48 | typing sets the address |
| InviteDialog.InviteForm.SendDisabled | src/components/ProjectInviteDialog.tsx:59 | the button is disabled exactly while sending or with an empty address |
| InviteDialog.InviteForm.HandleInvite | src/components/ProjectInviteDialog.tsx:20-36 | "Invalid email" exactly when the check fails; "Feature not available" exactly for well-shaped addresses; nothing is sent; `sending` ends false, so the button is disabled exactly for an empty address |
| Auth.LoweredMessage | src/pages/Auth.tsx:43 | the lower-cased message has the message's length and no capital letter; a missing message gives `''` |
| Auth.ClassifySignInError | src/pages/Auth.tsx:43-63 | "User not found" exactly when the lower-cased message contains one of the five phrases or the code is `auth/user-not-found`; otherwise "Sign in failed" with the raw message |
| Auth.ClassificationIgnoresCase | src/pages/Auth.tsx:43 | lower-casing the message first does not change the classification |
| Auth.ShortMessageIsSignInFailure | src/pages/Auth.tsx:43-63 | a message shorter than every phrase, without the code, is reported as "Sign in failed" with that message |
| Auth.PhraseMessageRecognised | src/pages/Auth.tsx:44-56 | each listed phrase, as the whole message, is classified "User not found" |
| Auth.AuthPage.constructor | src/pages/Auth.tsx:16-23 | sign-in mode, empty fields, not loading |
| Auth.AuthPage.ToggleMode | src/pages/Auth.tsx:235 | the link switches between sign-in and sign-up |
| Auth.AuthPage.HandleSubmit | src/pages/Auth.tsx:27-107 | clean-up and global sign-out come first, and a sign-out failure is ignored. Sign-in errors are classified. Sign-up is attempted only with matching passwords; a mismatch makes no call. Thrown errors give the current mode's failure. Loading ends false |
| DeadlineReminder.TodayString | supabase/functions/task-deadline-reminder/index.ts:23-27 | `yyyy-mm-dd`: the year, the month counted from one and the day, each two digits, reading back as the inputs; ten characters for four-digit years |
| DeadlineReminder.TodayStringInjective | supabase/functions/task-deadline-reminder/index.ts:23-33 | different days give different date strings |
| DeadlineReminder.DescriptionText | supabase/functions/task-deadline-reminder/index.ts:82 | the description, or "No description" when it is null or empty |
| DeadlineReminder.ReminderMessage | supabase/functions/task-deadline-reminder/index.ts:78-92 | sent from the fixed sender to the owner alone. The subject is "Task Deadline Reminder: " followed by the title. The body contains the title, project name, description and date |
| DeadlineReminder.OwnerEmail | supabase/functions/task-deadline-reminder/index.ts:47-75 | an address exactly when the project is found and the user lookup returns a non-empty e-mail, and then that e-mail |
| DeadlineReminder.ReminderFor | supabase/functions/task-deadline-reminder/index.ts:45-98 | an entry exactly when the owner's address is known. It is addressed to that owner, carries the task's id, and has the status of sending that task's message |
| DeadlineReminder.Reminders | supabase/functions/task-deadline-reminder/index.ts:43-98 | the reminders list is never longer than the list of due tasks |
| DeadlineReminder.RemindersAppend | supabase/functions/task-deadline-reminder/index.ts:43-98 | the entries for two runs of tasks are those of the first followed by those of the second |
| DeadlineReminder.RemindersMatchDeliverableTasks | supabase/functions/task-deadline-reminder/index.ts:43-98 | exactly one entry per task with a project and an owner address, in task order, each the entry of its task |
| DeadlineReminder.DeliverablePositions | supabase/functions/task-deadline-reminder/index.ts:43-98 | the increasing positions of exactly the tasks with a project and an owner address |
| DeadlineReminder.RemindersNameTheirTasks | supabase/functions/task-deadline-reminder/index.ts:43-98 | entry k is the entry of the task at the k-th such position: one entry per deliverable task position, none for the others, in order |
| DeadlineReminder.BuildReminders | supabase/functions/task-deadline-reminder/index.ts:43-99 | the loop skips tasks without a project or an owner address and records one entry per other task, as specified by `Reminders` |
| DeadlineReminder.Serve | supabase/functions/task-deadline-reminder/index.ts:17-104 | `OPTIONS` gets the CORS headers and no query. Otherwise today's tasks are queried. An error, null or no rows gives "No reminders to send."; otherwise the built reminders are returned |

## Left out

- The kanban board's reordering (midpoint positions, renumbering, rollback): `KanbanBoard`, `CardDetailsDialog` and `useProjectData` are not part of this model.
- All calls to the database, the auth service and the mail service. Each is replaced by the outcome it had, passed in as a parameter.
- Toasts, page navigation after sign-in or sign-up, and the React effects that trigger the first loads.
- Deleting a task (`handleDeleteTask`) and signing out of the settings page: each is a single backend call with a toast and nothing to decide.
- Presentation-only files (landing page, navigation bars, project cards and covers, the calendar widget's styling) and the password-visibility and "stay logged in" toggles.
- Floating point. The progress-bar widths are not modelled.
- ProjectDashboard.Percent: computes the exact rational rounding. The source computes `done / total * 100` in binary floating point, which can differ at exact halves (for example 0.285 × 100).
- ProjectDashboard.DashboardStats: uses one instant `now` and adds exactly seven days of milliseconds. The source calls `new Date()` separately in each filter, and `setDate(+7)` follows the local calendar, including daylight-saving changes.
- Text.ToLower: lower-cases ASCII letters only. `toLowerCase` also maps other scripts, so a non-ASCII message may classify differently.
- Lengths are counted in characters. JavaScript counts UTF-16 code units, so the six-character password minimum can differ for characters outside the basic plane.
- Time zones: the calendar's selected day is a given `yyyy-mm-dd` string, but the source takes it from the UTC rendering of a local `Date`. The reminder's clock is given as local year, zero-based month and day.
- TaskCalendar.ToggleRecord: uses one `now` for `completed_at` and `updated_at`. The source reads the clock twice, so the two times can differ by the time between the reads. KanbanCard.ToggleRecord does the same.
- The reminder function's lookups: `projects` and `users` are functions of the id. The source queries once per task, so two tasks of one project could see different answers (a lookup that fails once and succeeds later). The model gives them the same answer.
- The reload after a successful write is not awaited in the source. The handlers therefore only request it, and `LoadTasks` / `LoadProfile` model the reload as a separate step. How a slow reload interleaves with later clicks is not modelled.
- DeadlineReminder.Serve: counts a send as `Sent` whenever the mail call does not throw. An error object returned by the mail service is also recorded as sent, as in the source. The outcome of a send is a function of the message alone.
- DeadlineReminder.Serve: does not model the logging to the console.
- The shape of the JSON bodies is reduced to which of the three answers was given and the list of entries.

=== FILE: auth.dfy ===
/** The sign-in / sign-up page (src/pages/Auth.tsx): the submit handler with
    its session clean-up, the sign-up password check, and the classification
    of sign-in errors. The auth service's replies are parameters. */
module Auth {
  import opened Text
  import opened Records

  /** The lower-cased phrases that mark a sign-in error as an unknown user. */
  const UserNotFoundPhrases: seq<string> := ["user not found", "invalid login credentials",
    "invalid credentials", "credentials are invalid", "no user found"]

  /** The error code that marks an unknown user. */
  const UserNotFoundCode := "auth/user-not-found"

  /** The error object of a rejected sign-in or sign-up. */
  datatype AuthError = AuthError(message: Option<string>, code: Option<string>)

  /** The toast the submit handler ends with. */
  datatype Report = WelcomeBack | UserNotFound | SignInFailed(description: Option<string>)
                  | PasswordMismatch | SignUpFailed(description: Option<string>)
                  | AccountCreated

  /** `response.error.message?.toLowerCase() ?? ''`. */
  function LoweredMessage(e: AuthError): (r: string)
    ensures e.message.None? ==> r == []
    ensures e.message.Some? ==> |r| == |e.message.value|
    ensures NoCapitals(r)
  {
    if e.message.Some? then ToLower(e.message.value) else ""
  }

  /** The lower-cased message mentions one of the phrases. */
  predicate MentionsUnknownUser(msg: string) {
    exists k :: 0 <= k < |UserNotFoundPhrases| && Contains(msg, UserNotFoundPhrases[k])
  }

  /** The toast for a rejected sign-in: "User not found" when the message
      mentions an unknown user in any letter case or the code says so, and
      otherwise "Sign in failed" carrying the raw message. */
  function ClassifySignInError(e: AuthError): (r: Report)
    ensures r == UserNotFound <==>
      MentionsUnknownUser(LoweredMessage(e)) || e.code == Some(UserNotFoundCode)
    ensures r != UserNotFound ==> r == SignInFailed(e.message)
  {
    var msg := LoweredMessage(e);
    assert MentionsUnknownUser(msg) <==>
      (|| Contains(msg, "user not found")
       || Contains(msg, "invalid login credentials")
       || Contains(msg, "invalid credentials")
       || Contains(msg, "credentials are invalid")
       || Contains(msg, "no user found"))
    by {
      var ps := UserNotFoundPhrases;
      assert ps[0] == "user not found" && ps[1] == "invalid login credentials";
      assert ps[2] == "invalid credentials" && ps[3] == "credentials are invalid";
      assert ps[4] == "no user found";
    }
    if Contains(msg, "user not found")
       || Contains(msg, "invalid login credentials")
       || Contains(msg, "invalid credentials")
       || Contains(msg, "credentials are invalid")
       || Contains(msg, "no user found")
       || e.code == Some(UserNotFoundCode)
    then UserNotFound
    else SignInFailed(e.message)
  }

  /** The classification does not depend on the letter case of the message. */
  lemma ClassificationIgnoresCase(e: AuthError)
    requires e.message.Some?
    ensures var lowered := e.(message := Some(ToLower(e.message.value)));
      ClassifySignInError(lowered).UserNotFound? <==> ClassifySignInError(e).UserNotFound?
  {
    ToLowerIdempotent(e.message.value);
  }

  /** A message shorter than every phrase, without the code, is reported
      as "Sign in failed" with that message. */
  lemma ShortMessageIsSignInFailure(m: string, code: Option<string>)
    requires |m| < 13 && code != Some(UserNotFoundCode)
    ensures ClassifySignInError(AuthError(Some(m), code)) == SignInFailed(Some(m))
  {
    var msg := LoweredMessage(AuthError(Some(m), code));
    forall k | 0 <= k < |UserNotFoundPhrases|
      ensures !Contains(msg, UserNotFoundPhrases[k])
    {
      assert |UserNotFoundPhrases[k]| >= 13;
    }
  }

  /** Each phrase, as the whole message, is recognised. */
  lemma PhraseMessageRecognised(k: nat, code: Option<string>)
    requires k < |UserNotFoundPhrases|
    ensures ClassifySignInError(AuthError(Some(UserNotFoundPhrases[k]), code)) == UserNotFound
  {
    var p := UserNotFoundPhrases[k];
    PhraseIsLowerCase(k);
    assert p[0..][..|p|] == p;
  }

  lemma PhraseIsLowerCase(k: nat)
    requires k < |UserNotFoundPhrases|
    ensures ToLower(UserNotFoundPhrases[k]) == UserNotFoundPhrases[k]
  {
    var p := UserNotFoundPhrases[k];
    PhraseHasNoCapitals(k);
    LowerCaseUnchanged(p);
  }

  predicate NoCapitals(s: string) {
    forall i :: 0 <= i < |s| ==> !('A' <= s[i] <= 'Z')
  }

  lemma PhraseHasNoCapitals(k: nat)
    requires k < |UserNotFoundPhrases|
    ensures NoCapitals(UserNotFoundPhrases[k])
  {
    var ps := UserNotFoundPhrases;
    if k == 0 {
      assert NoCapitals(ps[0]);
    } else if k == 1 {
      assert NoCapitals(ps[1]);
    } else if k == 2 {
      assert NoCapitals(ps[2]);
    } else if k == 3 {
      assert NoCapitals(ps[3]);
    } else {
      assert NoCapitals(ps[4]);
    }
  }

  /** A string without capital letters is its own lower case. */
  lemma LowerCaseUnchanged(s: string)
    requires NoCapitals(s)
    ensures ToLower(s) == s
  {
  }

  /** A call the submit handler makes, in order. */
  datatype Step = CleanupAuthState | GlobalSignOut | SignIn(email: string, password: string)
                | SignUp(email: string, password: string)

  /** How the sign-in or sign-up call ended: accepted, answered with an
      error, or thrown with an error message. */
  datatype Reply = Accepted | Rejected(error: AuthError) | Threw(message: Option<string>)

  /** The page's state. */
  class AuthPage {
    var isLogin: bool
    var email: string
    var password: string
    var confirmPassword: string
    var loading: bool

    constructor ()
      ensures isLogin && email == [] && password == [] && confirmPassword == [] && !loading
    {
      isLogin := true;
      email, password, confirmPassword := "", "", "";
      loading := false;
    }

    /** The link under the form switches between signing in and signing up. */
    method ToggleMode()
      modifies this`isLogin
      ensures isLogin == !old(isLogin)
    {
      isLogin := !isLogin;
    }

    /** `handleSubmit`. Stale session state is cleaned up and a global
      sign-out attempted first; its failure (`signOutFails`) is ignored.
      Signing in classifies an error; signing up first requires the two
      passwords to agree and otherwise makes no call. A thrown error gives
      the failure toast of the current mode. `loading` is false on return. */
    method HandleSubmit(signOutFails: bool, reply: Reply) returns (report: Report, steps: seq<Step>)
      modifies this`loading
      ensures !loading
      ensures |steps| >= 2 && steps[..2] == [CleanupAuthState, GlobalSignOut]
      ensures isLogin ==>
        && steps == [CleanupAuthState, GlobalSignOut, SignIn(email, password)]
        && (reply.Accepted? ==> report == WelcomeBack)
        && (reply.Rejected? ==> report == ClassifySignInError(reply.error))
        && (reply.Threw? ==> report == SignInFailed(reply.message))
      ensures !isLogin && password != confirmPassword ==>
        steps == [CleanupAuthState, GlobalSignOut] && report == PasswordMismatch
      ensures !isLogin && password == confirmPassword ==>
        && steps == [CleanupAuthState, GlobalSignOut, SignUp(email, password)]
        && (reply.Accepted? ==> report == AccountCreated)
        && (reply.Rejected? ==> report == SignUpFailed(reply.error.message))
        && (reply.Threw? ==> report == SignUpFailed(reply.message))
      ensures (exists k :: 0 <= k < |steps| && steps[k].SignUp?) ==>
        !isLogin && password == confirmPassword
    {
      loading := true;
      steps := [CleanupAuthState];
      // A failed global sign-out is swallowed; the handler carries on.
      steps := steps + [GlobalSignOut];
      if isLogin {
        steps := steps + [SignIn(email, password)];
        match reply
        case Accepted => report := WelcomeBack;
        case Rejected(error) => report := ClassifySignInError(error);
        case Threw(message) => report := SignInFailed(message);
      } else {
        if password != confirmPassword {
          report := PasswordMismatch;
        } else {
          steps := steps + [SignUp(email, password)];
          match reply
          case Accepted => report := AccountCreated;
          case Rejected(error) => report := SignUpFailed(error.message);
          case Threw(message) => report := SignUpFailed(message);
        }
      }
      loading := false;
    }
  }
}

=== FILE: deadline_reminder.dfy ===
/** The edge function that e-mails a reminder for every task due
    today (supabase/functions/task-deadline-reminder/index.ts). The clock,
    the table queries, the admin user lookup and the mail service are
    parameters: `tasksDue` answers the task query for a date, `projects`
    the project lookup for a project id, `users` the user lookup for a user
    id, and `send` whether sending a message went through or threw. */
module DeadlineReminder {
  import opened Text
  import opened Records
  import opened Seqs

  /** `yyyy-mm-dd` from the local year, the zero-based month and the day of
      the month: the month is shifted to count from one, and month and day
      are padded with `0` to two digits. */
  function TodayString(year: int, monthIndex: nat, day: nat): (r: string)
    requires monthIndex < 12 && 1 <= day <= 31
    ensures |r| == |IntToString(year)| + 6
    ensures r[..|r| - 6] == IntToString(year) && r[|r| - 6] == '-' && r[|r| - 3] == '-'
    ensures AllDigits(r[|r| - 5..|r| - 3]) && ParseNat(r[|r| - 5..|r| - 3]) == monthIndex + 1
    ensures AllDigits(r[|r| - 2..]) && ParseNat(r[|r| - 2..]) == day
    ensures 1000 <= year < 10000 ==> |r| == 10
  {
    var y, m, d := IntToString(year), PadTwo(monthIndex + 1), PadTwo(day);
    var r := y + "-" + m + "-" + d;
    DateParts(y, m, d);
    assert 1000 <= year < 10000 ==> |y| == 4 by {
      if 1000 <= year < 10000 {
        NatToStringFourDigits(year);
      }
    }
    r
  }

  /** Where the three parts sit in `y-mm-dd`. */
  lemma DateParts(y: string, m: string, d: string)
    requires |m| == 2 && |d| == 2
    ensures var r := y + "-" + m + "-" + d;
      && |r| == |y| + 6 && r[..|r| - 6] == y && r[|r| - 6] == '-' && r[|r| - 3] == '-'
      && r[|r| - 5..|r| - 3] == m && r[|r| - 2..] == d
  {
    var r := y + "-" + m + "-" + d;
    assert r[..|r| - 6] == y;
    assert r[|r| - 5..|r| - 3] == m;
    assert r[|r| - 2..] == d;
  }

  /** Different days give different date strings: the date the task query
      filters on names one day only. */
  lemma TodayStringInjective(y1: int, m1: nat, d1: nat, y2: int, m2: nat, d2: nat)
    requires m1 < 12 && 1 <= d1 <= 31 && m2 < 12 && 1 <= d2 <= 31
    requires TodayString(y1, m1, d1) == TodayString(y2, m2, d2)
    ensures y1 == y2 && m1 == m2 && d1 == d2
  {
    var r := TodayString(y1, m1, d1);
    assert |IntToString(y1)| == |IntToString(y2)|;
    IntToStringInjective(y1, y2);
  }

  /** The row the project lookup selects. */
  datatype Project = Project(id: string, name: string, userId: string)

  /** The project lookup: one row, or an error or no row. */
  datatype ProjectLookup = ProjectFound(project: Project) | ProjectMissing

  /** The admin user lookup: it threw, or it returned a user's e-mail
      (`None` when there is no user or no e-mail). */
  datatype UserLookup = UserLookupThrew | UserLookupReturned(email: Option<string>)

  datatype DeliveryStatus = Sent | Failed

  /** A message handed to the mail service. */
  datatype Message = Message(from: string, to: seq<string>, subject: string, html: string)

  /** One entry of the response's `reminders`. */
  datatype Reminder = Reminder(to: string, status: DeliveryStatus, id: string)

  const Sender := "Deadline Reminder <onboarding@resend.dev>"
  const SubjectPrefix := "Task Deadline Reminder: "

  /** `task.description || "No description"`. */
  function DescriptionText(task: Task): (r: string)
    ensures r != []
    ensures task.description.Some? && task.description.value != [] ==> r == task.description.value
    ensures task.description.None? || task.description.value == [] ==> r == "No description"
  {
    if task.description.Some? && Truthy(task.description.value) then task.description.value
    else "No description"
  }

  lemma ContainsMiddle(a: string, t: string, b: string)
    ensures Contains(a + t + b, t)
  {
    assert (a + t + b)[|a|..][..|t|] == t;
  }

  /** A template with four holes contains what fills each hole. */
  lemma FilledTemplateContains(a: string, w: string, b: string, x: string, c: string,
                               y: string, d: string, z: string, e: string)
    ensures var h := a + w + b + x + c + y + d + z + e;
      Contains(h, w) && Contains(h, x) && Contains(h, y) && Contains(h, z)
  {
    var h := a + w + b + x + c + y + d + z + e;
    assert h == a + w + (b + x + c + y + d + z + e);
    ContainsMiddle(a, w, b + x + c + y + d + z + e);
    assert h == (a + w + b) + x + (c + y + d + z + e);
    ContainsMiddle(a + w + b, x, c + y + d + z + e);
    assert h == (a + w + b + x + c) + y + (d + z + e);
    ContainsMiddle(a + w + b + x + c, y, d + z + e);
    ContainsMiddle(a + w + b + x + c + y + d, z, e);
  }

  /** The fixed text around the four values in the message body. */
  const HtmlIntro := "\n      <h2>Task deadline today: "
  const HtmlProject := "</h2>\n      <p><b>Project:</b> "
  const HtmlDescription := "</p>\n      <p><b>Description:</b> "
  const HtmlDueDate := "</p>\n      <p><b>Due Date:</b> "
  const HtmlClosing := "</p>\n      <p>Please check your project calendar for details.</p>\n    "

  /** The reminder sent to the project owner: the subject names the task,
      and the body names the task, the project, the description and the
      date. */
  function ReminderMessage(task: Task, project: Project, today: string, email: string): (m: Message)
    ensures m.from == Sender && m.to == [email]
    ensures |m.subject| == |SubjectPrefix| + |task.title|
    ensures m.subject[..|SubjectPrefix|] == SubjectPrefix && m.subject[|SubjectPrefix|..] == task.title
    ensures Contains(m.html, task.title) && Contains(m.html, project.name)
    ensures Contains(m.html, DescriptionText(task)) && Contains(m.html, today)
  {
    var desc := DescriptionText(task);
    FilledTemplateContains(HtmlIntro, task.title, HtmlProject, project.name, HtmlDescription,
                           desc, HtmlDueDate, today, HtmlClosing);
    Message(Sender, [email], SubjectPrefix + task.title,
            HtmlIntro + task.title + HtmlProject + project.name + HtmlDescription
            + desc + HtmlDueDate + today + HtmlClosing)
  }

  /** The owner's e-mail for a task, when the project is found and the user
      lookup returns a non-empty e-mail; the task is skipped otherwise. */
  function OwnerEmail(task: Task, projects: string -> ProjectLookup,
                      users: string -> UserLookup): (r: Option<string>)
    ensures r.Some? <==>
      && projects(task.projectId).ProjectFound?
      && var u := users(projects(task.projectId).project.userId);
         u.UserLookupReturned? && u.email.Some? && u.email.value != []
    ensures r.Some? ==> r == users(projects(task.projectId).project.userId).email
  {
    match projects(task.projectId)
    case ProjectMissing => None
    case ProjectFound(project) =>
      match users(project.userId)
      case UserLookupThrew => None
      case UserLookupReturned(email) =>
        if email.Some? && Truthy(email.value) then email else None
  }

  /** The entry a task contributes: none when it is skipped, and otherwise
      one addressed to the owner, with the task's id and the status of the
      send. */
  function ReminderFor(task: Task, today: string, projects: string -> ProjectLookup,
                       users: string -> UserLookup, send: Message -> DeliveryStatus): (r: Option<Reminder>)
    ensures r.Some? <==> OwnerEmail(task, projects, users).Some?
    ensures r.Some? ==>
      && r.value.id == task.id
      && r.value.to == OwnerEmail(task, projects, users).value
      && r.value.status == send(ReminderMessage(task, projects(task.projectId).project, today, r.value.to))
  {
    var email := OwnerEmail(task, projects, users);
    if email.None? then None
    else
      var project := projects(task.projectId).project;
      Some(Reminder(email.value, send(ReminderMessage(task, project, today, email.value)), task.id))
  }

  function AsSeq<T>(o: Option<T>): seq<T> {
    if o.Some? then [o.value] else []
  }

  /** The `reminders` list built from the due tasks, in their order: never
      longer than the list of tasks. */
  function Reminders(tasks: seq<Task>, today: string, projects: string -> ProjectLookup,
                     users: string -> UserLookup, send: Message -> DeliveryStatus): (r: seq<Reminder>)
    ensures |r| <= |tasks|
  {
    if tasks == [] then []
    else Reminders(tasks[..|tasks| - 1], today, projects, users, send)
         + AsSeq(ReminderFor(tasks[|tasks| - 1], today, projects, users, send))
  }

  /** The list for two runs of tasks is the list for the first followed by
      the list for the second: entries keep the order of their tasks. */
  lemma {:induction false} RemindersAppend(a: seq<Task>, b: seq<Task>, today: string,
                                           projects: string -> ProjectLookup,
                                           users: string -> UserLookup,
                                           send: Message -> DeliveryStatus)
    ensures Reminders(a + b, today, projects, users, send)
         == Reminders(a, today, projects, users, send) + Reminders(b, today, projects, users, send)
    decreases |b|
  {
    if b == [] {
      assert a + b == a;
    } else {
      var b' := b[..|b| - 1];
      assert (a + b)[..|a + b| - 1] == a + b';
      assert (a + b)[|a + b| - 1] == b[|b| - 1];
      RemindersAppend(a, b', today, projects, users, send);
    }
  }

  /** The tasks that get an entry: those with a project and an owner e-mail. */
  predicate Deliverable(task: Task, projects: string -> ProjectLookup, users: string -> UserLookup) {
    OwnerEmail(task, projects, users).Some?
  }

  function DeliverableTest(projects: string -> ProjectLookup, users: string -> UserLookup): Task -> bool {
    (t: Task) => Deliverable(t, projects, users)
  }

  /** Exactly one entry per deliverable task, in task order, each carrying
      that task's id, its owner's address and the status of its send. */
  lemma {:induction false} RemindersMatchDeliverableTasks(tasks: seq<Task>, today: string,
                                                          projects: string -> ProjectLookup,
                                                          users: string -> UserLookup,
                                                          send: Message -> DeliveryStatus)
    ensures var rs := Reminders(tasks, today, projects, users, send);
      var ds := Filter(tasks, DeliverableTest(projects, users));
      && |rs| == |ds|
      && forall k :: 0 <= k < |rs| ==> Some(rs[k]) == ReminderFor(ds[k], today, projects, users, send)
  {
    var p := DeliverableTest(projects, users);
    if tasks != [] {
      var init, last := tasks[..|tasks| - 1], tasks[|tasks| - 1];
      RemindersMatchDeliverableTasks(init, today, projects, users, send);
      FilterLast(tasks, p);
      LastStep(Reminders(init, today, projects, users, send), Filter(init, p),
               AsSeq(ReminderFor(last, today, projects, users, send)), Filter([last], p),
               last, today, projects, users, send);
    }
  }

  /** Filtering a non-empty list is filtering all but its last element, then that one. */
  lemma FilterLast(tasks: seq<Task>, p: Task -> bool)
    requires tasks != []
    ensures var init, last := tasks[..|tasks| - 1], tasks[|tasks| - 1];
      && Filter(tasks, p) == Filter(init, p) + Filter([last], p)
      && Filter([last], p) == if p(last) then [last] else []
  {
    var init, last := tasks[..|tasks| - 1], tasks[|tasks| - 1];
    assert init + [last] == tasks;
    FilterAppend(init, [last], p);
    assert Filter([last], p) == (if p(last) then [last] else []) + Filter([], p);
  }

  lemma LastStep(ri: seq<Reminder>, di: seq<Task>, rl: seq<Reminder>, dl: seq<Task>, last: Task,
                 today: string, projects: string -> ProjectLookup,
                 users: string -> UserLookup, send: Message -> DeliveryStatus)
    requires |ri| == |di|
    requires forall k :: 0 <= k < |ri| ==> Some(ri[k]) == ReminderFor(di[k], today, projects, users, send)
    requires rl == AsSeq(ReminderFor(last, today, projects, users, send))
    requires dl == if Deliverable(last, projects, users) then [last] else []
    ensures |ri + rl| == |di + dl|
    ensures forall k :: 0 <= k < |ri + rl| ==>
      Some((ri + rl)[k]) == ReminderFor((di + dl)[k], today, projects, users, send)
  {
  }

  /** The positions of the tasks that get an entry, in increasing order. */
  function DeliverablePositions(tasks: seq<Task>, projects: string -> ProjectLookup,
                                users: string -> UserLookup): (ps: seq<nat>)
    ensures forall k :: 0 <= k < |ps| ==> ps[k] < |tasks|
    ensures forall k, l :: 0 <= k < l < |ps| ==> ps[k] < ps[l]
    ensures forall i :: 0 <= i < |tasks| ==> (i in ps <==> Deliverable(tasks[i], projects, users))
  {
    if tasks == [] then []
    else
      var n := |tasks| - 1;
      var init := DeliverablePositions(tasks[..n], projects, users);
      assert forall i :: 0 <= i < n ==> tasks[..n][i] == tasks[i];
      init + if Deliverable(tasks[n], projects, users) then [n] else []
  }

  /** Entry k belongs to the k-th deliverable task position: each task gets
      at most one entry, and every deliverable task gets exactly one, in
      task order. */
  lemma {:induction false} RemindersNameTheirTasks(tasks: seq<Task>, today: string,
                                                   projects: string -> ProjectLookup,
                                                   users: string -> UserLookup,
                                                   send: Message -> DeliveryStatus)
    ensures var rs := Reminders(tasks, today, projects, users, send);
      var ps := DeliverablePositions(tasks, projects, users);
      && |rs| == |ps|
      && forall k :: 0 <= k < |rs| ==>
           Some(rs[k]) == ReminderFor(tasks[ps[k]], today, projects, users, send)
  {
    if tasks != [] {
      var n := |tasks| - 1;
      var init := tasks[..n];
      RemindersNameTheirTasks(init, today, projects, users, send);
      var ri := Reminders(init, today, projects, users, send);
      var pi := DeliverablePositions(init, projects, users);
      var rl := AsSeq(ReminderFor(tasks[n], today, projects, users, send));
      assert Reminders(tasks, today, projects, users, send) == ri + rl;
      assert DeliverablePositions(tasks, projects, users)
          == pi + if Deliverable(tasks[n], projects, users) then [n] else [];
      PositionStep(ri, pi, rl, tasks, today, projects, users, send);
    }
  }

  lemma PositionStep(ri: seq<Reminder>, pi: seq<nat>, rl: seq<Reminder>, tasks: seq<Task>,
                     today: string, projects: string -> ProjectLookup,
                     users: string -> UserLookup, send: Message -> DeliveryStatus)
    requires tasks != [] && |ri| == |pi|
    requires forall k :: 0 <= k < |pi| ==> pi[k] < |tasks| - 1
    requires forall k :: 0 <= k < |ri| ==>
      Some(ri[k]) == ReminderFor(tasks[..|tasks| - 1][pi[k]], today, projects, users, send)
    requires rl == AsSeq(ReminderFor(tasks[|tasks| - 1], today, projects, users, send))
    ensures var ps := pi + if Deliverable(tasks[|tasks| - 1], projects, users) then [|tasks| - 1] else [];
      && |ri + rl| == |ps|
      && forall k :: 0 <= k < |ri + rl| ==>
           ps[k] < |tasks| && Some((ri + rl)[k]) == ReminderFor(tasks[ps[k]], today, projects, users, send)
  {
  }

  /** The loop over the due tasks: a task without a project or an owner
      e-mail is skipped; otherwise one message is sent and one entry
      recorded, `Sent` when sending went through and `Failed` when it threw. */
  method BuildReminders(tasks: seq<Task>, today: string, projects: string -> ProjectLookup,
                        users: string -> UserLookup, send: Message -> DeliveryStatus)
    returns (reminders: seq<Reminder>)
    ensures reminders == Reminders(tasks, today, projects, users, send)
  {
    reminders := [];
    for i := 0 to |tasks|
      invariant reminders == Reminders(tasks[..i], today, projects, users, send)
    {
      var task := tasks[i];
      assert tasks[..i + 1][..i] == tasks[..i];
      var lookup := projects(task.projectId);
      if lookup.ProjectFound? {
        var project := lookup.project;
        var user := users(project.userId);
        if user.UserLookupReturned? && user.email.Some? && Truthy(user.email.value) {
          var email := user.email.value;
          var status := send(ReminderMessage(task, project, today, email));
          reminders := reminders + [Reminder(email, status, task.id)];
        }
      }
    }
    assert tasks[..|tasks|] == tasks;
  }

  /** The incoming request, by its method. */
  datatype Request = Request(httpMethod: string)

  /** The local date the function reads its clock as. */
  datatype Clock = Clock(year: int, monthIndex: nat, day: nat)

  predicate ValidClock(c: Clock) {
    c.monthIndex < 12 && 1 <= c.day <= 31
  }

  /** The task query: an error, or the rows (possibly null). */
  datatype TaskQuery = TaskQueryFailed | TaskRows(rows: Option<seq<Task>>)

  /** The response body: none (pre-flight), `{ok: true, message: "No
      reminders to send."}`, or `{ok: true, reminders}`. */
  datatype Body = NoBody | NoRemindersToSend | RemindersBody(reminders: seq<Reminder>)

  datatype Response = Response(body: Body, headers: seq<(string, string)>)

  const CorsHeaders: seq<(string, string)> :=
    [("Access-Control-Allow-Origin", "*"),
     ("Access-Control-Allow-Headers", "authorization, x-client-info, apikey, content-type")]

  const JsonHeaders: seq<(string, string)> := CorsHeaders + [("Content-Type", "application/json")]

  /** Nothing to do: the query failed, or returned null or no rows. */
  predicate NothingDue(q: TaskQuery) {
    q.TaskQueryFailed? || q.rows.None? || q.rows.value == []
  }

  /** The request handler. A pre-flight `OPTIONS` request is answered with
      the CORS headers and no query. Otherwise the tasks dated today are
      queried; with none, the answer says there is nothing to send, and
      with some it lists the reminders built from them. */
  method Serve(req: Request, clock: Clock, tasksDue: string -> TaskQuery,
               projects: string -> ProjectLookup, users: string -> UserLookup,
               send: Message -> DeliveryStatus)
    returns (resp: Response, queried: Option<string>)
    requires ValidClock(clock)
    ensures req.httpMethod == "OPTIONS" ==> resp == Response(NoBody, CorsHeaders) && queried == None
    ensures req.httpMethod != "OPTIONS" ==>
      var today := TodayString(clock.year, clock.monthIndex, clock.day);
      var q := tasksDue(today);
      && queried == Some(today)
      && resp.headers == JsonHeaders
      && (NothingDue(q) ==> resp.body == NoRemindersToSend)
      && (!NothingDue(q) ==>
            resp.body == RemindersBody(Reminders(q.rows.value, today, projects, users, send)))
  {
    if req.httpMethod == "OPTIONS" {
      return Response(NoBody, CorsHeaders), None;
    }
    var today := TodayString(clock.year, clock.monthIndex, clock.day);
    queried := Some(today);
    var q := tasksDue(today);
    if q.TaskQueryFailed? || q.rows.None? || |q.rows.value| == 0 {
      return Response(NoRemindersToSend, JsonHeaders), queried;
    }
    var reminders := BuildReminders(q.rows.value, today, projects, users, send);
    resp := Response(RemindersBody(reminders), JsonHeaders);
  }
}

=== FILE: invite_dialog.dfy ===
/** The contributor invite dialog (src/components/ProjectInviteDialog.tsx):
    the e-mail check behind `handleInvite`, the `sending` flag, and the fact
    that no invite is ever sent. */
module InviteDialog {
  import opened Text

  predicate NoAt(s: string) {
    '@' !in s
  }

  /** The number of `@` characters in `s`. */
  function AtCount(s: string): nat {
    multiset(s)['@']
  }

  /** The pattern `^[^@]+@[^@]+\.[^@]+$` read directly: some non-empty run
      without `@`, an `@`, a non-empty run without `@`, a dot, and a
      non-empty run without `@` up to the end. */
  predicate MatchesInvitePattern(s: string): (r: bool)
    ensures r ==> |s| >= 5
  {
    exists i, j :: 0 < i < j - 1 && j < |s| - 1 && s[i] == '@' && s[j] == '.'
                   && NoAt(s[..i]) && NoAt(s[i + 1..j]) && NoAt(s[j + 1..])
  }

  /** The index of the first `@` in `s`, or `|s|` when there is none. */
  function IndexOfAt(s: string): (k: nat)
    ensures k <= |s| && NoAt(s[..k])
    ensures k < |s| ==> s[k] == '@'
  {
    if s == [] then 0
    else if s[0] == '@' then 0
    else
      var k := 1 + IndexOfAt(s[1..]);
      assert s[..k] == [s[0]] + s[1..][..k - 1];
      k
  }

  /** The domain contains a dot that is neither its first nor its last character. */
  predicate HasInnerDot(d: string) {
    exists k :: 0 < k < |d| - 1 && d[k] == '.'
  }

  /** The shape the pattern accepts, stated plainly: exactly one `@`, a
      non-empty part before it, and a part after it with an inner dot. */
  predicate WellShapedEmail(s: string) {
    && AtCount(s) == 1
    && 0 < IndexOfAt(s)
    && HasInnerDot(s[IndexOfAt(s) + 1..])
  }

  lemma NoAtCount(s: string)
    ensures NoAt(s) <==> AtCount(s) == 0
  {
  }

  /** Counting the `@` on either side of one character. */
  lemma AtCountSplit(s: string, i: nat)
    requires i < |s|
    ensures AtCount(s) == AtCount(s[..i]) + (if s[i] == '@' then 1 else 0) + AtCount(s[i + 1..])
  {
    assert s == s[..i] + [s[i]] + s[i + 1..];
  }

  /** The facts a match at `@` index `i` and dot index `j` gives. */
  lemma MatchFacts(s: string, i: nat, j: nat)
    requires 0 < i < j - 1 && j < |s| - 1 && s[i] == '@' && s[j] == '.'
    requires NoAt(s[..i]) && NoAt(s[i + 1..j]) && NoAt(s[j + 1..])
    ensures AtCount(s) == 1 && IndexOfAt(s) == i && HasInnerDot(s[i + 1..])
  {
    var d := s[i + 1..];
    var m := j - i - 1;
    assert d[m] == '.' && d[..m] == s[i + 1..j] && d[m + 1..] == s[j + 1..];
    AtCountSplit(d, m);
    NoAtCount(s[i + 1..j]);
    NoAtCount(s[j + 1..]);
    AtCountSplit(s, i);
    NoAtCount(s[..i]);
    assert forall m :: 0 <= m < i ==> s[m] == s[..i][m];
  }

  lemma PatternImpliesWellShaped(s: string)
    requires MatchesInvitePattern(s)
    ensures WellShapedEmail(s)
  {
    var i, j :| 0 < i < j - 1 && j < |s| - 1 && s[i] == '@' && s[j] == '.'
                && NoAt(s[..i]) && NoAt(s[i + 1..j]) && NoAt(s[j + 1..]);
    MatchFacts(s, i, j);
  }

  lemma WellShapedImpliesPattern(s: string)
    requires WellShapedEmail(s)
    ensures MatchesInvitePattern(s)
  {
    var i := IndexOfAt(s);
    var d := s[i + 1..];
    var k :| 0 < k < |d| - 1 && d[k] == '.';
    var j := i + 1 + k;
    assert s[j] == '.';
    assert s == s[..i] + [s[i]] + d;
    NoAtCount(s[..i]);
    assert AtCount(d) == 0;
    NoAtCount(d);
    assert d == s[i + 1..j] + [s[j]] + s[j + 1..];
    assert NoAt(s[i + 1..j]) && NoAt(s[j + 1..]);
  }

  /** The pattern accepts exactly the well-shaped addresses. */
  lemma PatternIffWellShaped(s: string)
    ensures MatchesInvitePattern(s) <==> WellShapedEmail(s)
  {
    if MatchesInvitePattern(s) {
      PatternImpliesWellShaped(s);
    }
    if WellShapedEmail(s) {
      WellShapedImpliesPattern(s);
    }
  }

  /** Addresses with no `@` or with two or more are always rejected. */
  lemma WrongAtCountRejected(s: string)
    requires AtCount(s) != 1
    ensures !MatchesInvitePattern(s)
  {
    PatternIffWellShaped(s);
  }

  /** The check of `handleInvite`: a non-empty address matching the pattern. */
  predicate AcceptsInviteEmail(email: string): (r: bool)
    ensures r <==> WellShapedEmail(email)
  {
    PatternIffWellShaped(email);
    Truthy(email) && MatchesInvitePattern(email)
  }

  /** An empty address is rejected. */
  lemma EmptyEmailRejected()
    ensures !AcceptsInviteEmail("")
  {
  }

  /** The toast `handleInvite` ends with. */
  datatype InviteOutcome = InvalidEmail | FeatureNotAvailable

  /** The dialog's state. */
  class InviteForm {
    var email: string
    var sending: bool

    constructor ()
      ensures email == [] && !sending
    {
      email := "";
      sending := false;
    }

    /** The send button is disabled while sending or with an empty address. */
    function SendDisabled(): (r: bool)
      reads this
      ensures r <==> sending || email == []
    {
      sending || !Truthy(email)
    }

    /** Typing into the address field. */
    method SetEmail(value: string)
      modifies this`email
      ensures email == value
    {
      email := value;
    }

    /** `handleInvite`: an address failing the check gives "Invalid email"; a
      valid one gives "Feature not available". No invite is sent, and
      `sending` is false again when it returns. */
    method HandleInvite() returns (outcome: InviteOutcome)
      modifies this`sending
      ensures outcome == InvalidEmail <==> !AcceptsInviteEmail(email)
      ensures outcome == FeatureNotAvailable <==> WellShapedEmail(email)
      ensures !sending && (SendDisabled() <==> email == [])
    {
      sending := true;
      PatternIffWellShaped(email);
      if !AcceptsInviteEmail(email) {
        sending := false;
        return InvalidEmail;
      }
      outcome := FeatureNotAvailable;
      sending := false;
    }
  }
}

=== FILE: kanban_card.dfy ===
/** One card on the board (src/components/KanbanCard.tsx): its completion
    checkbox, the tag row with its overflow badge, the priority dot and the
    completed-date line. */
module KanbanCard {
  import opened Text
  import opened Records
  import opened Seqs

  /** `priorityColors`: the class of the priority dot. */
  function PriorityColor(p: Priority): (r: string)
    ensures p == Low ==> r == "bg-gray-500"
    ensures p == Medium ==> r == "bg-yellow-500"
    ensures p == High ==> r == "bg-orange-500"
    ensures p == Urgent ==> r == "bg-red-500"
  {
    match p
    case Low => "bg-gray-500"
    case Medium => "bg-yellow-500"
    case High => "bg-orange-500"
    case Urgent => "bg-red-500"
  }

  /** Each priority has its own colour. */
  lemma PriorityColorInjective(p: Priority, q: Priority)
    ensures PriorityColor(p) == PriorityColor(q) <==> p == q
  {
  }

  /** The priority dot: drawn only for a card that has a priority, in that
      priority's colour. */
  function PriorityDot(card: Card): (dot: Option<string>)
    ensures dot.Some? <==> card.priority.Some?
    ensures dot.Some? ==> dot.value == PriorityColor(card.priority.value)
  {
    match card.priority
    case None => None
    case Some(p) => Some(PriorityColor(p))
  }

  /** How many tags are shown before the overflow badge. */
  const ShownTags := 3

  /** The rendered tag row: the tags shown and the overflow badge, if any. */
  datatype TagRow = TagRow(shown: seq<string>, badge: Option<string>)

  /** The tag row of a card: absent for no or empty tags; otherwise the first
      three tags and, when there are more, a badge `+k` counting the rest. */
  function TagRowOf(tags: Option<seq<string>>): (r: Option<TagRow>)
    ensures r.None? <==> tags.None? || tags.value == []
    ensures r.Some? ==>
      && r.value.shown == Take(tags.value, ShownTags)
      && (r.value.badge.Some? <==> |tags.value| > ShownTags)
      && (r.value.badge.Some? ==>
            && |r.value.badge.value| >= 2 && r.value.badge.value[0] == '+'
            && r.value.badge.value[1..] == NatToString(|tags.value| - ShownTags))
  {
    if tags.None? || |tags.value| == 0 then None
    else
      var n := |tags.value|;
      Some(TagRow(Take(tags.value, ShownTags),
                  if n > ShownTags then Some("+" + NatToString(n - ShownTags)) else None))
  }

  /** The number a badge `+k` shows. */
  function BadgeCount(badge: Option<string>): nat {
    match badge
    case None => 0
    case Some(b) =>
      if |b| >= 1 && b[0] == '+' && forall i :: 1 <= i < |b| ==> IsDigit(b[i]) then ParseNat(b[1..]) else 0
  }

  /** The shown tags and the number on the badge add up to all of the card's
      tags, and the shown tags are its first ones, in order. */
  lemma TagRowAccountsForAll(tags: seq<string>)
    requires tags != []
    ensures var r := TagRowOf(Some(tags)).value;
      && |r.shown| + BadgeCount(r.badge) == |tags|
      && |r.shown| == Min(ShownTags, |tags|)
      && forall k :: 0 <= k < |r.shown| ==> r.shown[k] == tags[k]
  {
    var r := TagRowOf(Some(tags)).value;
    if |tags| > ShownTags {
      var b := r.badge.value;
      assert b == "+" + NatToString(|tags| - ShownTags);
      assert b[1..] == NatToString(|tags| - ShownTags);
      ParseNatToString(|tags| - ShownTags);
    }
  }

  /** The "Completed" line shows only for a completed card with a completion
      time; an unchecked card or one without a completion time has none. */
  predicate ShowsCompletedLine(card: Card): (r: bool)
    ensures r ==> card.completed == Some(true) && card.completedAt.Some?
    ensures card.completed != Some(true) || card.completedAt.None? ==> !r
  {
    card.completed == Some(true) && card.completedAt.Some? && Truthy(card.completedAt.value)
  }

  /** What the checkbox sends: the completion flag, the completion time
      (null when unchecking) and the update time; never the card's column,
      position or content. */
  function ToggleRecord(completed: bool, now: string): (p: CardPatch)
    ensures p.completed == Write(Some(completed))
    ensures p.completedAt.Write? && (p.completedAt.value.Some? <==> completed)
    ensures p.columnId == Keep && p.position == Keep && p.title == Keep
    ensures p.updatedAt == Write(now)
  {
    CardPatch(Keep, Keep, Keep, Write(Some(completed)),
              Write(if completed then Some(now) else None), Write(now))
  }

  /** Toggling leaves the card where it is on the board, keeps its
      completion columns in agreement, and the completed line then shows
      exactly when the card was checked. */
  lemma ToggleKeepsPlace(c: Card, completed: bool, now: string)
    requires Truthy(now)
    ensures var r := ApplyCardPatch(c, ToggleRecord(completed, now));
      && r.columnId == c.columnId && r.position == c.position
      && r.title == c.title && r.tags == c.tags && r.priority == c.priority
      && r == c.(completed := Some(completed), completedAt := r.completedAt, updatedAt := now)
      && CardCompletionConsistent(r)
      && (ShowsCompletedLine(r) <==> completed)
  {
  }

  /** Checking a card and then unchecking it clears its completion. */
  lemma ToggleOnThenOff(c: Card, now1: string, now2: string)
    ensures var r := ApplyCardPatch(ApplyCardPatch(c, ToggleRecord(true, now1)), ToggleRecord(false, now2));
      r == c.(completed := Some(false), completedAt := None, updatedAt := now2)
  {
  }
}

=== FILE: project_dashboard.dfy ===
/** The project overview (src/components/ProjectDashboard.tsx): task and card
    counts, the completion percentages and the recent-activity lists. Times are
    integers in milliseconds; `parse` stands for `new Date(task_date)` and
    yields `None` for an invalid date, with which every comparison is false. */
module ProjectDashboard {
  import opened Text
  import opened Records
  import opened Seqs

  const DayMs := 24 * 60 * 60 * 1000
  /** `weekFromNow` is seven calendar days after `now`. */
  const WeekMs := 7 * DayMs

  predicate IsCompletedTask(t: Task) {
    t.completed == Some(true)
  }

  predicate IsCompletedCard(c: Card) {
    c.completed == Some(true)
  }

  /** The task's date as a time, when it has a non-empty, valid date. */
  function DueTime(t: Task, parse: string -> Option<int>): (r: Option<int>)
    ensures t.taskDate.None? || t.taskDate == Some("") ==> r.None?
    ensures t.taskDate.Some? && t.taskDate.value != [] ==> r == parse(t.taskDate.value)
  {
    if t.taskDate.None? || !Truthy(t.taskDate.value) then None else parse(t.taskDate.value)
  }

  /** Counted as upcoming: dated between now and a week from now, and not completed. */
  predicate IsUpcoming(t: Task, now: int, parse: string -> Option<int>): (r: bool)
    ensures r ==> t.taskDate.Some? && t.taskDate.value != [] && !IsCompletedTask(t)
  {
    var d := DueTime(t, parse);
    d.Some? && now <= d.value <= now + WeekMs && !IsCompletedTask(t)
  }

  /** Counted as overdue: dated before now and not completed, and so never
      also upcoming. */
  predicate IsOverdue(t: Task, now: int, parse: string -> Option<int>): (r: bool)
    ensures r ==> t.taskDate.Some? && t.taskDate.value != [] && !IsCompletedTask(t)
    ensures r ==> !IsUpcoming(t, now, parse)
  {
    var d := DueTime(t, parse);
    d.Some? && d.value < now && !IsCompletedTask(t)
  }

  /** `Math.round(done / total * 100)`, or 0 without items: the integer
      nearest to the percentage, halves rounded up. */
  function Percent(done: nat, total: nat): (r: nat)
    ensures total == 0 ==> r == 0
    ensures total > 0 ==> 2 * total * r <= 200 * done + total < 2 * total * r + 2 * total
    ensures done <= total ==> r <= 100
    ensures done == total > 0 ==> r == 100
  {
    if total == 0 then 0
    else
      var n, d := 200 * done + total, 2 * total;
      var r := n / d;
      DivBounds(n, d);
      assert done <= total ==> r <= 100 by {
        if done <= total {
          assert d * r < d * 101;
          MulCancel(d, r, 101);
        }
      }
      assert done == total ==> r >= 100 by {
        if done == total {
          assert d * 99 < d * r by { assert n == d * 100 + total; }
          MulCancel(d, 99, r);
        }
      }
      r
  }

  lemma DivBounds(n: nat, d: nat)
    requires d > 0
    ensures d * (n / d) <= n < d * (n / d) + d
  {
  }

  lemma MulCancel(d: nat, x: nat, y: nat)
    requires d > 0 && d * x < d * y
    ensures x < y
  {
  }

  function UpcomingTest(now: int, parse: string -> Option<int>): Task -> bool {
    (t: Task) => IsUpcoming(t, now, parse)
  }

  function OverdueTest(now: int, parse: string -> Option<int>): Task -> bool {
    (t: Task) => IsOverdue(t, now, parse)
  }

  /** The figures the overview shows. */
  datatype Stats = Stats(totalTasks: nat, completedTasks: nat, upcomingTasks: nat,
                         overdueTasks: nat, taskPercent: nat, totalCards: nat,
                         completedCards: nat, cardPercent: nat)

  /** The overview for one instant `now`: each count is the number of
      tasks or cards its filter keeps, and each percentage is `Percent` of
      its count. Upcoming and overdue tasks are not completed and never both,
      so completed, upcoming and overdue together never exceed the tasks;
      both percentages lie in [0, 100], and are 0 without tasks or cards. */
  function DashboardStats(tasks: seq<Task>, cards: seq<Card>, now: int,
                          parse: string -> Option<int>): (s: Stats)
    ensures s.totalTasks == |tasks| && s.totalCards == |cards|
    ensures s.completedTasks == |Filter(tasks, IsCompletedTask)|
    ensures s.upcomingTasks == |Filter(tasks, UpcomingTest(now, parse))|
    ensures s.overdueTasks == |Filter(tasks, OverdueTest(now, parse))|
    ensures s.completedCards == |Filter(cards, IsCompletedCard)|
    ensures s.taskPercent == Percent(s.completedTasks, s.totalTasks)
    ensures s.cardPercent == Percent(s.completedCards, s.totalCards)
    ensures s.completedTasks + s.upcomingTasks + s.overdueTasks <= s.totalTasks
    ensures s.completedCards <= s.totalCards
    ensures s.taskPercent <= 100 && s.cardPercent <= 100
    ensures s.totalTasks == 0 ==> s.taskPercent == 0
    ensures s.totalCards == 0 ==> s.cardPercent == 0
  {
    var done := |Filter(tasks, IsCompletedTask)|;
    var upcoming := |Filter(tasks, UpcomingTest(now, parse))|;
    var overdue := |Filter(tasks, OverdueTest(now, parse))|;
    var doneCards := |Filter(cards, IsCompletedCard)|;
    FilterExclusiveBound(tasks, IsCompletedTask, UpcomingTest(now, parse), OverdueTest(now, parse));
    Stats(|tasks|, done, upcoming, overdue, Percent(done, |tasks|), |cards|, doneCards,
          Percent(doneCards, |cards|))
  }

  /** Each count of the overview is the number of positions in the list
      whose task or card it counts. */
  lemma DashboardCounts(tasks: seq<Task>, cards: seq<Card>, now: int, parse: string -> Option<int>)
    ensures var s := DashboardStats(tasks, cards, now, parse);
      && s.completedTasks == |set i: nat | i < |tasks| && tasks[i].completed == Some(true)|
      && s.upcomingTasks == |set i: nat | i < |tasks| && IsUpcoming(tasks[i], now, parse)|
      && s.overdueTasks == |set i: nat | i < |tasks| && IsOverdue(tasks[i], now, parse)|
      && s.completedCards == |set i: nat | i < |cards| && cards[i].completed == Some(true)|
  {
    FilterCountsPositions(tasks, IsCompletedTask);
    FilterCountsPositions(tasks, UpcomingTest(now, parse));
    FilterCountsPositions(tasks, OverdueTest(now, parse));
    FilterCountsPositions(cards, IsCompletedCard);
    assert PositionsWhere(tasks, IsCompletedTask)
        == set i: nat | i < |tasks| && tasks[i].completed == Some(true);
    assert PositionsWhere(tasks, UpcomingTest(now, parse))
        == set i: nat | i < |tasks| && IsUpcoming(tasks[i], now, parse);
    assert PositionsWhere(tasks, OverdueTest(now, parse))
        == set i: nat | i < |tasks| && IsOverdue(tasks[i], now, parse);
    assert PositionsWhere(cards, IsCompletedCard)
        == set i: nat | i < |cards| && cards[i].completed == Some(true);
  }

  /** A task is upcoming exactly when it is dated in the coming week and not
      completed, overdue exactly when dated in the past and not completed;
      a task without a date is neither. */
  lemma UpcomingAndOverdueMembership(tasks: seq<Task>, now: int, parse: string -> Option<int>, t: Task)
    ensures t in Filter(tasks, UpcomingTest(now, parse)) <==>
              t in tasks && DueTime(t, parse).Some? && !IsCompletedTask(t)
              && now <= DueTime(t, parse).value <= now + WeekMs
    ensures t in Filter(tasks, OverdueTest(now, parse)) <==>
              t in tasks && DueTime(t, parse).Some? && !IsCompletedTask(t)
              && DueTime(t, parse).value < now
    ensures t.taskDate.None? ==> t !in Filter(tasks, UpcomingTest(now, parse))
                                 && t !in Filter(tasks, OverdueTest(now, parse))
  {
  }

  /** Recent activity: the first three tasks. */
  function RecentTasks(tasks: seq<Task>): (r: seq<Task>)
    ensures |r| == Min(3, |tasks|) && r == tasks[..|r|]
  {
    Take(tasks, 3)
  }

  /** Recent activity: the first two cards. */
  function RecentCards(cards: seq<Card>): (r: seq<Card>)
    ensures |r| == Min(2, |cards|) && r == cards[..|r|]
  {
    Take(cards, 2)
  }

  /** "No recent activity" shows exactly when both recent lists are empty. */
  lemma NoRecentActivity(tasks: seq<Task>, cards: seq<Card>)
    ensures (|tasks| == 0 && |cards| == 0) <==> (RecentTasks(tasks) == [] && RecentCards(cards) == [])
  {
  }
}

=== FILE: records.dfy ===
/** The rows the components read from the `project_tasks` and `cards` tables,
    with the optional completion columns added by `TaskWithCompletion` and
    `CardWithCompletion`, and the partial update objects written back. */
module Records {
  import opened Text

  datatype Option<T> = None | Some(value: T)

  /** One key of an update object: left out of the object (the stored value
      stays) or written with a value. */
  datatype Field<T> = Keep | Write(value: T)

  function Patched<T>(stored: T, f: Field<T>): T {
    match f
    case Keep => stored
    case Write(v) => v
  }

  /** `s || null`: the empty string becomes null. */
  function EmptyToNull(s: string): (r: Option<string>)
    ensures r == None <==> s == []
    ensures r.Some? ==> r.value == s
  {
    if Truthy(s) then Some(s) else None
  }

  /** `v || ''` for a nullable text column: null and `''` both read as `''`. */
  function NullToEmpty(v: Option<string>): (r: string)
    ensures v.Some? ==> r == v.value
    ensures v.None? ==> r == []
  {
    match v
    case None => ""
    case Some(s) => s
  }

  /** A row of `project_tasks`. `completed` is optional; `completedAt` is
      optional and nullable, and both absent and null read as `None`. */
  datatype Task = Task(
    id: string,
    projectId: string,
    title: string,
    description: Option<string>,
    taskDate: Option<string>,
    startTime: Option<string>,
    endTime: Option<string>,
    status: Option<string>,
    completed: Option<bool>,
    completedAt: Option<string>,
    updatedAt: string)

  /** An object passed to `update` on `project_tasks`. */
  datatype TaskPatch = TaskPatch(
    projectId: Field<string>,
    title: Field<string>,
    description: Field<Option<string>>,
    taskDate: Field<Option<string>>,
    startTime: Field<Option<string>>,
    endTime: Field<Option<string>>,
    status: Field<Option<string>>,
    completed: Field<Option<bool>>,
    completedAt: Field<Option<string>>,
    updatedAt: Field<string>)

  /** The row after `update(p).eq('id', t.id)`: the keys present in `p` are
      overwritten, every other column keeps its value. */
  function ApplyTaskPatch(t: Task, p: TaskPatch): (r: Task)
    ensures r.id == t.id
  {
    Task(t.id, Patched(t.projectId, p.projectId), Patched(t.title, p.title),
         Patched(t.description, p.description), Patched(t.taskDate, p.taskDate),
         Patched(t.startTime, p.startTime), Patched(t.endTime, p.endTime),
         Patched(t.status, p.status), Patched(t.completed, p.completed),
         Patched(t.completedAt, p.completedAt), Patched(t.updatedAt, p.updatedAt))
  }

  datatype Priority = Low | Medium | High | Urgent

  /** A row of `cards`. */
  datatype Card = Card(
    id: string,
    columnId: string,
    title: string,
    description: Option<string>,
    tags: Option<seq<string>>,
    priority: Option<Priority>,
    position: int,
    assignedTo: Option<string>,
    dueDate: Option<string>,
    completed: Option<bool>,
    completedAt: Option<string>,
    createdAt: string,
    updatedAt: string)

  /** An object passed to `update` on `cards`. */
  datatype CardPatch = CardPatch(
    columnId: Field<string>,
    position: Field<int>,
    title: Field<string>,
    completed: Field<Option<bool>>,
    completedAt: Field<Option<string>>,
    updatedAt: Field<string>)

  function ApplyCardPatch(c: Card, p: CardPatch): (r: Card)
    ensures r.id == c.id
  {
    c.(columnId := Patched(c.columnId, p.columnId),
       position := Patched(c.position, p.position),
       title := Patched(c.title, p.title),
       completed := Patched(c.completed, p.completed),
       completedAt := Patched(c.completedAt, p.completedAt),
       updatedAt := Patched(c.updatedAt, p.updatedAt))
  }

  /** The completion columns agree: a completion time is stored exactly when
      the row is completed. */
  predicate TaskCompletionConsistent(t: Task) {
    t.completedAt.Some? <==> t.completed == Some(true)
  }

  predicate CardCompletionConsistent(c: Card) {
    c.completedAt.Some? <==> c.completed == Some(true)
  }
}

=== FILE: seqs.dfy ===
/** `Array.prototype.filter` and `slice(0, n)` over sequences. */
module Seqs {

  /** The elements of `s` that satisfy `p`, in their original order. */
  function Filter<T(!new)>(s: seq<T>, p: T -> bool): (r: seq<T>)
    ensures |r| <= |s|
    ensures forall x :: x in r <==> x in s && p(x)
  {
    if s == [] then [] else (if p(s[0]) then [s[0]] else []) + Filter(s[1..], p)
  }

  /** Filtering keeps the order: it distributes over concatenation. */
  lemma {:induction false} FilterAppend<T(!new)>(a: seq<T>, b: seq<T>, p: T -> bool)
    ensures Filter(a + b, p) == Filter(a, p) + Filter(b, p)
  {
    if a != [] {
      FilterAppend(a[1..], b, p);
      assert (a + b)[0] == a[0] && (a + b)[1..] == a[1..] + b;
    } else {
      assert a + b == b;
    }
  }

  /** The positions of the elements of `s` that satisfy `p`. */
  function PositionsWhere<T>(s: seq<T>, p: T -> bool): set<nat> {
    set i: nat | i < |s| && p(s[i])
  }

  /** `filter(p).length` counts the positions whose element satisfies `p`. */
  lemma {:induction false} FilterCountsPositions<T(!new)>(s: seq<T>, p: T -> bool)
    ensures |Filter(s, p)| == |PositionsWhere(s, p)|
  {
    if s != [] {
      var n := |s| - 1;
      var init := s[..n];
      FilterCountsPositions(init, p);
      assert init + [s[n]] == s;
      FilterAppend(init, [s[n]], p);
      assert Filter([s[n]], p) == if p(s[n]) then [s[n]] else [];
      PositionsLast(s, p);
    }
  }

  lemma PositionsLast<T>(s: seq<T>, p: T -> bool)
    requires s != []
    ensures var n := |s| - 1; var a := PositionsWhere(s[..n], p);
      && n !in a
      && PositionsWhere(s, p) == if p(s[n]) then a + {n} else a
  {
    var n := |s| - 1;
    assert forall i :: 0 <= i < n ==> s[..n][i] == s[i];
  }

  /** Three filters with pairwise exclusive conditions select at most as many
      elements as there are. */
  lemma {:induction false} FilterExclusiveBound<T(!new)>(s: seq<T>, p: T -> bool, q: T -> bool, u: T -> bool)
    requires forall x :: x in s ==> !(p(x) && q(x)) && !(p(x) && u(x)) && !(q(x) && u(x))
    ensures |Filter(s, p)| + |Filter(s, q)| + |Filter(s, u)| <= |s|
  {
    if s != [] {
      assert forall x :: x in s[1..] ==> x in s;
      FilterExclusiveBound(s[1..], p, q, u);
    }
  }

  function Min(a: nat, b: nat): nat {
    if a <= b then a else b
  }

  /** `s.slice(0, n)`: the first `n` elements, or all of them when there are fewer. */
  function Take<T>(s: seq<T>, n: nat): (r: seq<T>)
    ensures |r| == Min(n, |s|)
    ensures forall k :: 0 <= k < |r| ==> r[k] == s[k]
  {
    if |s| <= n then s else s[..n]
  }
}

=== FILE: settings.dfy ===
/** The account settings page (src/pages/Settings.tsx): the profile form and
    what it saves, and the password change with its checks and the two auth
    calls it makes. Backend outcomes are passed in as parameters. */
module Settings {
  import opened Text
  import opened Records

  const MinPasswordLength := 6

  /** The first failing check of the password form, or `Passed`. */
  datatype PasswordCheck = MissingFields | TooShort | Mismatch | Passed

  /** The checks of `handleChangePassword`, in order: all three fields
      filled, a new password of at least six characters, and a confirmation
      equal to it. Only the first failure is reported. */
  function CheckPasswordChange(current: string, proposed: string, confirm: string): (r: PasswordCheck)
    ensures r == MissingFields <==> (current == [] || proposed == [] || confirm == [])
    ensures r == TooShort <==>
      (current != [] && proposed != [] && confirm != [] && |proposed| < MinPasswordLength)
    ensures r == Mismatch <==>
      (current != [] && proposed != [] && confirm != [] && |proposed| >= MinPasswordLength && proposed != confirm)
    ensures r == Passed <==>
      (current != [] && |proposed| >= MinPasswordLength && confirm == proposed)
  {
    if !Truthy(current) || !Truthy(proposed) || !Truthy(confirm) then MissingFields
    else if |proposed| < MinPasswordLength then TooShort
    else if proposed != confirm then Mismatch
    else Passed
  }

  /** A row of `profiles`. */
  datatype Profile = Profile(id: string, firstName: Option<string>, lastName: Option<string>,
                             avatarUrl: Option<string>, bio: Option<string>)

  /** The object `handleSaveProfile` upserts. */
  datatype ProfileData = ProfileData(id: string, firstName: Option<string>,
                                     lastName: Option<string>, bio: Option<string>)

  /** The saved profile: each field trimmed, a blank one stored as null. */
  function ProfileRecord(userId: string, first: string, last: string, bio: string): (p: ProfileData)
    ensures p.id == userId
    ensures p.firstName.None? <==> AllWhitespace(first)
    ensures p.lastName.None? <==> AllWhitespace(last)
    ensures p.bio.None? <==> AllWhitespace(bio)
    ensures p.firstName.Some? ==> p.firstName.value == Trim(first)
    ensures p.lastName.Some? ==> p.lastName.value == Trim(last)
    ensures p.bio.Some? ==> p.bio.value == Trim(bio)
  {
    ProfileData(userId, EmptyToNull(Trim(first)), EmptyToNull(Trim(last)), EmptyToNull(Trim(bio)))
  }

  /** The stored row after the upsert of `data` over `before` (absent when the
      user had no profile yet). */
  function Upserted(before: Option<Profile>, data: ProfileData): Profile {
    Profile(data.id, data.firstName, data.lastName,
            if before.Some? then before.value.avatarUrl else None, data.bio)
  }

  /** The form fields `loadProfile` fills from a row. */
  datatype ProfileForm = ProfileForm(firstName: string, lastName: string, bio: string)

  /** Null columns show as `''`, stored values as they are. */
  function FormOf(p: Profile): (f: ProfileForm)
    ensures f.firstName == (if p.firstName.Some? then p.firstName.value else [])
    ensures f.lastName == (if p.lastName.Some? then p.lastName.value else [])
    ensures f.bio == (if p.bio.Some? then p.bio.value else [])
  {
    ProfileForm(NullToEmpty(p.firstName), NullToEmpty(p.lastName), NullToEmpty(p.bio))
  }

  /** Saving a profile and loading it back shows the trimmed fields, and
      saving that form again stores the same record. */
  lemma SaveLoadRoundTrip(userId: string, first: string, last: string, bio: string,
                          before: Option<Profile>)
    ensures var data := ProfileRecord(userId, first, last, bio);
      var f := FormOf(Upserted(before, data));
      && f == ProfileForm(Trim(first), Trim(last), Trim(bio))
      && ProfileRecord(userId, f.firstName, f.lastName, f.bio) == data
  {
    TrimIdempotent(first);
    TrimIdempotent(last);
    TrimIdempotent(bio);
    var data := ProfileRecord(userId, first, last, bio);
    assert NullToEmpty(data.firstName) == Trim(first);
    assert NullToEmpty(data.lastName) == Trim(last);
    assert NullToEmpty(data.bio) == Trim(bio);
  }

  /** The signed-in user. */
  datatype User = User(id: string, email: string)

  /** A call the password change makes to the auth service. */
  datatype AuthCall = SignInWithPassword(email: string, password: string)
                    | UpdatePassword(password: string)

  /** What an awaited auth call gave: no error, an error object, or a thrown
      exception. */
  datatype AuthReply = NoError | ReturnedError | Threw

  /** How `handleChangePassword` ends. `Aborted` is a call that threw: the
      handler has no `try`, so it stops there without a toast. */
  datatype PasswordOutcome = NotSignedIn | Rejected(check: PasswordCheck)
                           | WrongCurrentPassword | ChangeFailed | PasswordChanged | Aborted

  /** The result of the `profiles` query: a row or none, or an error code. */
  datatype ProfileQuery = ProfileFound(row: Option<Profile>) | ProfileError(code: string)

  /** The settings page's state. */
  class SettingsPage {
    const user: Option<User>
    var profile: Option<Profile>
    var firstName: string
    var lastName: string
    var bio: string
    var loading: bool
    var saving: bool
    var passwordTabOpen: bool
    var currentPassword: string
    var newPassword: string
    var confirmNewPassword: string
    var passwordLoading: bool

    constructor (user: Option<User>)
      ensures this.user == user && profile == None
      ensures firstName == [] && lastName == [] && bio == []
      ensures loading && !saving && !passwordTabOpen && !passwordLoading
      ensures currentPassword == [] && newPassword == [] && confirmNewPassword == []
    {
      this.user := user;
      profile := None;
      firstName, lastName, bio := "", "", "";
      loading, saving, passwordTabOpen, passwordLoading := true, false, false, false;
      currentPassword, newPassword, confirmNewPassword := "", "", "";
    }

    /** `loadProfile`: without a user nothing happens (and loading does not
      end); a found row fills the form; an error or no row leaves it. */
    method LoadProfile(result: ProfileQuery)
      modifies this`profile, this`firstName, this`lastName, this`bio, this`loading
      ensures user.None? ==> unchanged(this)
      ensures user.Some? && result.ProfileFound? && result.row.Some? ==>
        && profile == result.row
        && ProfileForm(firstName, lastName, bio) == FormOf(result.row.value)
        && !loading
      ensures user.Some? && !(result.ProfileFound? && result.row.Some?) ==>
        && profile == old(profile)
        && firstName == old(firstName) && lastName == old(lastName) && bio == old(bio)
        && !loading
    {
      if user.None? {
        return;
      }
      if result.ProfileFound? && result.row.Some? {
        var row := result.row.value;
        profile := result.row;
        firstName := NullToEmpty(row.firstName);
        lastName := NullToEmpty(row.lastName);
        bio := NullToEmpty(row.bio);
      }
      loading := false;
    }

    /** `handleSaveProfile`: without a user nothing is sent; otherwise the
      trimmed record is upserted and saving ends false. A successful upsert
      asks for the profile to be reloaded (`LoadProfile`, not awaited); a
      failed one changes nothing else. */
    method HandleSaveProfile(upsertOk: bool) returns (sent: Option<ProfileData>, reload: bool)
      modifies this`saving
      ensures user.None? ==> sent == None && !reload && saving == old(saving)
      ensures user.Some? ==>
        && sent == Some(ProfileRecord(user.value.id, firstName, lastName, bio))
        && reload == upsertOk
        && !saving
    {
      if user.None? {
        return None, false;
      }
      saving := true;
      sent := Some(ProfileRecord(user.value.id, firstName, lastName, bio));
      reload := upsertOk;
      saving := false;
    }

    /** The "Change Password" button opens and closes the panel. */
    method TogglePasswordPanel()
      modifies this`passwordTabOpen
      ensures passwordTabOpen == !old(passwordTabOpen)
    {
      passwordTabOpen := !passwordTabOpen;
    }

    /** `handleChangePassword`. Nothing happens without a user. A failed check
      makes no call. Otherwise the user signs in again with the current
      password, and only if that returns no error is the new password sent. A
      successful change clears the three fields and closes the panel. The
      loading flag ends false when both calls return; a call that throws
      leaves it set, since the handler has no `finally`. */
    method HandleChangePassword(reauth: AuthReply, update: AuthReply)
      returns (outcome: PasswordOutcome, calls: seq<AuthCall>)
      modifies this`currentPassword, this`newPassword, this`confirmNewPassword,
               this`passwordTabOpen, this`passwordLoading
      ensures user.None? ==> outcome == NotSignedIn && calls == [] && unchanged(this)
      ensures user.Some? ==>
        var check := CheckPasswordChange(old(currentPassword), old(newPassword), old(confirmNewPassword));
        && (check != Passed ==> outcome == Rejected(check) && calls == [] && unchanged(this))
        && (check == Passed ==>
             && |calls| >= 1 && calls[0] == SignInWithPassword(user.value.email, old(currentPassword))
             && (reauth == NoError ==> calls == [calls[0], UpdatePassword(old(newPassword))])
             && (reauth != NoError ==> calls == [calls[0]])
             && (reauth == ReturnedError ==> outcome == WrongCurrentPassword)
             && (reauth == NoError && update == ReturnedError ==> outcome == ChangeFailed)
             && (reauth == NoError && update == NoError ==> outcome == PasswordChanged)
             && (outcome == Aborted <==> reauth == Threw || (reauth == NoError && update == Threw))
             && (passwordLoading <==> outcome == Aborted))
      ensures outcome == PasswordChanged ==>
        currentPassword == [] && newPassword == [] && confirmNewPassword == [] && !passwordTabOpen
      ensures outcome != PasswordChanged ==>
        currentPassword == old(currentPassword) && newPassword == old(newPassword)
        && confirmNewPassword == old(confirmNewPassword) && passwordTabOpen == old(passwordTabOpen)
      ensures (exists k :: 0 <= k < |calls| && calls[k].UpdatePassword?) ==>
        CheckPasswordChange(old(currentPassword), old(newPassword), old(confirmNewPassword)) == Passed
        && reauth == NoError
    {
      calls := [];
      if user.None? {
        return NotSignedIn, calls;
      }
      var check := CheckPasswordChange(currentPassword, newPassword, confirmNewPassword);
      if check != Passed {
        return Rejected(check), calls;
      }
      passwordLoading := true;
      calls := calls + [SignInWithPassword(user.value.email, currentPassword)];
      if reauth == Threw {
        return Aborted, calls;
      }
      if reauth == ReturnedError {
        passwordLoading := false;
        return WrongCurrentPassword, calls;
      }
      calls := calls + [UpdatePassword(newPassword)];
      if update == Threw {
        return Aborted, calls;
      }
      if update == NoError {
        outcome := PasswordChanged;
        currentPassword, newPassword, confirmNewPassword := "", "", "";
        passwordTabOpen := false;
      } else {
        outcome := ChangeFailed;
      }
      passwordLoading := false;
    }
  }
}

=== FILE: task_calendar.dfy ===
/** The task calendar of a project (src/components/TaskCalendar.tsx): the
    create/edit dialog and its form, the records it inserts and updates, the
    completion checkbox, and the tasks shown for the selected day. Calls to the
    store are replaced by their outcomes, passed in as parameters. */
module TaskCalendar {
  import opened Text
  import opened Records
  import opened Seqs

  const Pending := "pending"
  const Completed := "completed"

  /** The dialog's form (`newTask`). */
  datatype TaskForm = TaskForm(title: string, description: string, startTime: string,
                               endTime: string, status: string)

  /** The form every reset returns to. */
  const BlankForm := TaskForm("", "", "", "", Pending)

  /** The object handed to `insert` on `project_tasks`. */
  datatype TaskInsert = TaskInsert(projectId: string, title: string, description: Option<string>,
                                   taskDate: string, startTime: Option<string>,
                                   endTime: Option<string>, status: string, completed: bool)

  /** What `handleCreateTask` inserts for the form and the selected day, or
      nothing when the title is blank. The title and description are trimmed,
      and an empty description or time is stored as null. */
  function CreateRecord(form: TaskForm, projectId: string, day: string): (r: Option<TaskInsert>)
    ensures r.None? <==> AllWhitespace(form.title)
    ensures r.Some? ==>
      && r.value.projectId == projectId
      && r.value.taskDate == day
      && r.value.title == Trim(form.title) && r.value.title != []
      && (r.value.description.None? <==> AllWhitespace(form.description))
      && (r.value.description.Some? ==> r.value.description.value == Trim(form.description))
      && (r.value.startTime.None? <==> form.startTime == [])
      && (r.value.endTime.None? <==> form.endTime == [])
      && (r.value.startTime.Some? ==> r.value.startTime.value == form.startTime)
      && (r.value.endTime.Some? ==> r.value.endTime.value == form.endTime)
      && r.value.status == form.status
      && !r.value.completed
  {
    if !Truthy(Trim(form.title)) then None
    else Some(TaskInsert(projectId, Trim(form.title), EmptyToNull(Trim(form.description)), day,
                         EmptyToNull(form.startTime), EmptyToNull(form.endTime), form.status, false))
  }

  /** The row the store holds after an insert, given the id and the update
      time it assigns; `completed_at` is not part of the insert and stays null. */
  function InsertedRow(ins: TaskInsert, id: string, now: string): Task {
    Task(id, ins.projectId, ins.title, ins.description, Some(ins.taskDate), ins.startTime,
         ins.endTime, Some(ins.status), Some(ins.completed), None, now)
  }

  /** The form `openEditDialog` fills from a stored task: stored values show
      as they are, null text columns become `''` and a missing or empty status
      becomes `'pending'`. */
  function EditForm(t: Task): (f: TaskForm)
    ensures f.title == t.title
    ensures f.description == (if t.description.Some? then t.description.value else [])
    ensures f.startTime == (if t.startTime.Some? then t.startTime.value else [])
    ensures f.endTime == (if t.endTime.Some? then t.endTime.value else [])
    ensures f.status != []
    ensures t.status.Some? && t.status.value != [] ==> f.status == t.status.value
    ensures (t.status.None? || t.status == Some("")) ==> f.status == Pending
  {
    TaskForm(t.title, NullToEmpty(t.description), NullToEmpty(t.startTime),
             NullToEmpty(t.endTime),
             if t.status.Some? && Truthy(t.status.value) then t.status.value else Pending)
  }

  /** What `handleUpdateTask` sends: the id of the task being edited and the
      update object, or nothing when no task is being edited or the title is
      blank. The update never touches the completion columns, the date or the
      project. */
  function UpdateRecord(editing: Option<Task>, form: TaskForm, now: string): (r: Option<(string, TaskPatch)>)
    ensures r.None? <==> (editing.None? || AllWhitespace(form.title))
    ensures r.Some? ==>
      && r.value.0 == editing.value.id
      && r.value.1.completed == Keep && r.value.1.completedAt == Keep
      && r.value.1.taskDate == Keep && r.value.1.projectId == Keep
      && r.value.1.title == Write(Trim(form.title))
      && r.value.1.status == Write(Some(form.status))
      && r.value.1.updatedAt == Write(now)
      && r.value.1.description.Write?
      && (r.value.1.description.value.None? <==> AllWhitespace(form.description))
      && (r.value.1.description.value.Some? ==>
            r.value.1.description.value.value == Trim(form.description))
      && r.value.1.startTime == Write(if form.startTime == [] then None else Some(form.startTime))
      && r.value.1.endTime == Write(if form.endTime == [] then None else Some(form.endTime))
  {
    if editing.None? || !Truthy(Trim(form.title)) then None
    else Some((editing.value.id,
               TaskPatch(Keep, Write(Trim(form.title)), Write(EmptyToNull(Trim(form.description))),
                         Keep, Write(EmptyToNull(form.startTime)), Write(EmptyToNull(form.endTime)),
                         Write(Some(form.status)), Keep, Keep, Write(now))))
  }

  /** What the completion checkbox of a task sends. */
  function ToggleRecord(completed: bool, now: string): (p: TaskPatch)
    ensures p.completed == Write(Some(completed))
    ensures p.completedAt.Write? && (p.completedAt.value.Some? <==> completed)
    ensures p.status == Write(Some(if completed then Completed else Pending))
    ensures p.title == Keep && p.description == Keep && p.taskDate == Keep && p.projectId == Keep
    ensures p.startTime == Keep && p.endTime == Keep
    ensures p.updatedAt == Write(now)
  {
    TaskPatch(Keep, Keep, Keep, Keep, Keep, Keep,
              Write(Some(if completed then Completed else Pending)),
              Write(Some(completed)), Write(if completed then Some(now) else None), Write(now))
  }

  /** After a toggle the completion columns agree and the status follows the
      checkbox; every other column of the task is unchanged. */
  lemma ToggleKeepsTask(t: Task, completed: bool, now: string)
    ensures var r := ApplyTaskPatch(t, ToggleRecord(completed, now));
      && TaskCompletionConsistent(r)
      && (r.status == Some(Completed) <==> completed)
      && r == t.(completed := Some(completed), completedAt := r.completedAt,
                 status := r.status, updatedAt := now)
  {
  }

  /** Checking a task and then unchecking it leaves it incomplete, without a
      completion time and `pending`, whatever its status was before (an
      `in-progress` status is not restored). */
  lemma ToggleOnThenOff(t: Task, now1: string, now2: string)
    ensures var r := ApplyTaskPatch(ApplyTaskPatch(t, ToggleRecord(true, now1)), ToggleRecord(false, now2));
      r == t.(completed := Some(false), completedAt := None, status := Some(Pending), updatedAt := now2)
  {
  }

  /** Editing a task changes neither its completion, nor its date, nor its project. */
  lemma UpdateKeepsCompletion(t: Task, form: TaskForm, now: string)
    requires !AllWhitespace(form.title)
    ensures UpdateRecord(Some(t), form, now).Some?
    ensures var r := ApplyTaskPatch(t, UpdateRecord(Some(t), form, now).value.1);
      && r.completed == t.completed && r.completedAt == t.completedAt
      && r.taskDate == t.taskDate && r.projectId == t.projectId
      && r.title == Trim(form.title)
  {
  }

  /** A stored task as this dialog writes it: a trimmed non-blank title, a
      trimmed non-blank description or null, times that are null rather than
      `''`, and a status. */
  predicate Normalised(t: Task) {
    && !AllWhitespace(t.title) && Trim(t.title) == t.title
    && (t.description.Some? ==> !AllWhitespace(t.description.value)
                                && Trim(t.description.value) == t.description.value)
    && t.startTime != Some("") && t.endTime != Some("")
    && t.status.Some? && Truthy(t.status.value)
  }

  /** Every task created through the dialog is stored normalised, and opening
      it for editing shows the trimmed title and description and the same
      times and status. */
  lemma CreateThenEdit(form: TaskForm, projectId: string, day: string, id: string, now: string)
    requires !AllWhitespace(form.title) && Truthy(form.status)
    ensures CreateRecord(form, projectId, day).Some?
    ensures var row := InsertedRow(CreateRecord(form, projectId, day).value, id, now);
      && Normalised(row)
      && EditForm(row) == TaskForm(Trim(form.title), Trim(form.description), form.startTime,
                                   form.endTime, form.status)
  {
    var desc := EmptyToNull(Trim(form.description));
    var row := Task(id, projectId, Trim(form.title), desc, Some(day), EmptyToNull(form.startTime),
                    EmptyToNull(form.endTime), Some(form.status), Some(false), None, now);
    assert InsertedRow(CreateRecord(form, projectId, day).value, id, now) == row;
    TrimIdempotent(form.title);
    TrimIdempotent(form.description);
    assert desc.Some? ==> !AllWhitespace(desc.value);
    assert Normalised(row);
    assert NullToEmpty(desc) == Trim(form.description);
    assert NullToEmpty(EmptyToNull(form.startTime)) == form.startTime;
    assert NullToEmpty(EmptyToNull(form.endTime)) == form.endTime;
  }

  /** Saving the edit form of a normalised task without changing anything
      writes back the same values: only `updated_at` moves. */
  lemma EditThenSaveIsNoOp(t: Task, later: string)
    requires Normalised(t)
    ensures UpdateRecord(Some(t), EditForm(t), later).Some?
    ensures ApplyTaskPatch(t, UpdateRecord(Some(t), EditForm(t), later).value.1) == t.(updatedAt := later)
  {
    var f := EditForm(t);
    DescriptionRoundTrip(t.description);
    assert Trim(f.title) == t.title && Truthy(t.title);
    assert EmptyToNull(Trim(f.description)) == t.description;
    assert EmptyToNull(f.startTime) == t.startTime;
    assert EmptyToNull(f.endTime) == t.endTime;
    assert Some(f.status) == t.status;
    var p := TaskPatch(Keep, Write(t.title), Write(t.description), Keep, Write(t.startTime),
                       Write(t.endTime), Write(t.status), Keep, Keep, Write(later));
    assert UpdateRecord(Some(t), f, later) == Some((t.id, p));
    assert ApplyTaskPatch(t, p) == t.(updatedAt := later);
  }

  /** A trimmed non-blank description, or null, survives the edit form and
      the update unchanged. */
  lemma DescriptionRoundTrip(d: Option<string>)
    requires d.Some? ==> !AllWhitespace(d.value) && Trim(d.value) == d.value
    ensures EmptyToNull(Trim(NullToEmpty(d))) == d
  {
    if d.None? {
      assert NullToEmpty(d) == "";
    }
  }

  /** `selectedDateTasks`: the tasks dated on the selected day, in list order. */
  function SelectedDateTasks(tasks: seq<Task>, day: string): (r: seq<Task>)
    ensures |r| <= |tasks|
    ensures forall t :: t in r <==> t in tasks && t.taskDate == Some(day)
  {
    Filter(tasks, (t: Task) => t.taskDate == Some(day))
  }

  /** `datesWithTasks`: every task's date, null included, and nothing else. */
  function DatesWithTasks(tasks: seq<Task>): (r: set<Option<string>>)
    ensures forall k :: 0 <= k < |tasks| ==> tasks[k].taskDate in r
    ensures forall d :: d in r ==> exists k :: 0 <= k < |tasks| && tasks[k].taskDate == d
  {
    set t | t in tasks :: t.taskDate
  }

  /** The calendar marks a day (`hasTask`) exactly when some task falls on
      it, i.e. when the list for that day is not empty. */
  lemma {:induction false} MarkedIffTasksOnDay(tasks: seq<Task>, day: string)
    ensures Some(day) in DatesWithTasks(tasks) <==> SelectedDateTasks(tasks, day) != []
    ensures Some(day) in DatesWithTasks(tasks) <==> exists t :: t in tasks && t.taskDate == Some(day)
  {
    var r := SelectedDateTasks(tasks, day);
    if r != [] {
      assert r[0] in r;
      assert r[0].taskDate in DatesWithTasks(tasks);
    }
    if Some(day) in DatesWithTasks(tasks) {
      var t :| t in tasks && t.taskDate == Some(day);
      assert t in r;
    }
  }

  /** The list for a day keeps the order of the task list: the tasks of a
      longer list are those of its parts, one after the other. */
  lemma SelectedDateTasksAppend(a: seq<Task>, b: seq<Task>, day: string)
    ensures SelectedDateTasks(a + b, day) == SelectedDateTasks(a, day) + SelectedDateTasks(b, day)
  {
    FilterAppend(a, b, (t: Task) => t.taskDate == Some(day));
  }

  /** The calendar component's state. Backend calls are replaced by the
      outcome they had; `reload` is the result of the `loadTasks` query that
      follows a successful write (`None` when it failed). */
  class CalendarView {
    const projectId: string
    var tasks: seq<Task>
    var selectedDay: string
    var showCreateDialog: bool
    var editingTask: Option<Task>
    var newTask: TaskForm
    var loading: bool

    constructor (projectId: string, today: string)
      ensures this.projectId == projectId && selectedDay == today
      ensures tasks == [] && !showCreateDialog && editingTask == None
      ensures newTask == BlankForm && loading
    {
      this.projectId := projectId;
      tasks := [];
      selectedDay := today;
      showCreateDialog := false;
      editingTask := None;
      newTask := BlankForm;
      loading := true;
    }

    /** The dialog is open while creating or editing. */
    function DialogOpen(): (r: bool)
      reads this
      ensures r <==> showCreateDialog || editingTask.Some?
    {
      showCreateDialog || editingTask.Some?
    }

    function SelectedTasks(): (r: seq<Task>)
      reads this
      ensures forall t :: t in r <==> t in tasks && t.taskDate == Some(selectedDay)
    {
      SelectedDateTasks(tasks, selectedDay)
    }

    /** `loadTasks`: a successful query replaces the list, a failed one leaves
      it; either way loading ends. */
    method LoadTasks(reload: Option<seq<Task>>)
      modifies this`tasks, this`loading
      ensures tasks == (if reload.Some? then reload.value else old(tasks))
      ensures !loading
      ensures selectedDay == old(selectedDay) && showCreateDialog == old(showCreateDialog)
      ensures editingTask == old(editingTask) && newTask == old(newTask)
    {
      if reload.Some? {
        tasks := reload.value;
      }
      loading := false;
    }

    /** Picking a day in the calendar; a cleared selection is ignored. */
    method SelectDate(day: Option<string>)
      modifies this`selectedDay
      ensures selectedDay == (if day.Some? then day.value else old(selectedDay))
    {
      if day.Some? {
        selectedDay := day.value;
      }
    }

    method OpenCreateDialog()
      modifies this`showCreateDialog
      ensures showCreateDialog && DialogOpen()
    {
      showCreateDialog := true;
    }

    method OpenEditDialog(task: Task)
      modifies this`editingTask, this`newTask
      ensures editingTask == Some(task) && newTask == EditForm(task) && DialogOpen()
    {
      editingTask := Some(task);
      newTask := EditForm(task);
    }

    method CloseDialog()
      modifies this`showCreateDialog, this`editingTask, this`newTask
      ensures !showCreateDialog && editingTask == None && newTask == BlankForm && !DialogOpen()
    {
      showCreateDialog := false;
      editingTask := None;
      newTask := BlankForm;
    }

    /** `handleCreateTask`: nothing is sent for a blank title. After a
      successful insert the form is reset, the dialog closed and a reload of
      the list requested (`LoadTasks`, not awaited); after a failed one
      nothing changes. */
    method HandleCreateTask(insertOk: bool) returns (sent: Option<TaskInsert>, reload: bool)
      modifies this`newTask, this`showCreateDialog
      ensures sent == CreateRecord(old(newTask), projectId, selectedDay)
      ensures sent.None? ==> AllWhitespace(old(newTask.title))
      ensures reload == (sent.Some? && insertOk)
      ensures if reload then newTask == BlankForm && !showCreateDialog
              else newTask == old(newTask) && showCreateDialog == old(showCreateDialog)
    {
      sent := CreateRecord(newTask, projectId, selectedDay);
      reload := sent.Some? && insertOk;
      if reload {
        newTask := BlankForm;
        showCreateDialog := false;
      }
    }

    /** `handleUpdateTask`: nothing is sent without a task being edited or
      with a blank title. After a successful update editing ends, the form is
      reset and a reload requested; otherwise nothing changes. */
    method HandleUpdateTask(now: string, updateOk: bool)
      returns (sent: Option<(string, TaskPatch)>, reload: bool)
      modifies this`editingTask, this`newTask
      ensures sent == UpdateRecord(old(editingTask), old(newTask), now)
      ensures reload == (sent.Some? && updateOk)
      ensures if reload then editingTask == None && newTask == BlankForm
              else editingTask == old(editingTask) && newTask == old(newTask)
    {
      sent := UpdateRecord(editingTask, newTask, now);
      reload := sent.Some? && updateOk;
      if reload {
        editingTask := None;
        newTask := BlankForm;
      }
    }

    /** `handleCompletionToggle`: the update for the task's id always goes
      out, and the list is reloaded only when it succeeded. */
    method HandleCompletionToggle(task: Task, completed: bool, now: string, updateOk: bool)
      returns (sent: (string, TaskPatch), reload: bool)
      ensures sent.0 == task.id && sent.1 == ToggleRecord(completed, now)
      ensures reload == updateOk
    {
      sent := (task.id, ToggleRecord(completed, now));
      reload := updateOk;
    }
  }
}

=== FILE: text.dfy ===
/** String helpers shared by the components: JavaScript's `trim`, `toLowerCase`,
    `includes`, the truthiness of strings, and decimal rendering of numbers. */
module Text {

  /** The characters `String.prototype.trim` removes: ECMAScript WhiteSpace
      and LineTerminator code points. */
  predicate IsJsWhitespace(c: char) {
    || c == ' ' || c == '\t' || c == '\n' || c == '\r'
    || c == '\U{000B}' || c == '\U{000C}' || c == '\U{00A0}' || c == '\U{1680}'
    || ('\U{2000}' <= c <= '\U{200A}')
    || c == '\U{2028}' || c == '\U{2029}' || c == '\U{202F}' || c == '\U{205F}'
    || c == '\U{3000}' || c == '\U{FEFF}'
  }

  predicate AllWhitespace(s: string) {
    forall i :: 0 <= i < |s| ==> IsJsWhitespace(s[i])
  }

  /** Drops the leading whitespace: what is left is a suffix of `s` that is
      empty or starts with a non-whitespace character. */
  function TrimStart(s: string): (r: string)
    ensures |r| <= |s| && r == s[|s| - |r|..]
    ensures r == [] || !IsJsWhitespace(r[0])
    ensures AllWhitespace(s[..|s| - |r|])
  {
    if s != [] && IsJsWhitespace(s[0]) then TrimStart(s[1..]) else s
  }

  /** Drops the trailing whitespace: what is left is a prefix of `s` that is
      empty or ends with a non-whitespace character. */
  function TrimEnd(s: string): (r: string)
    ensures |r| <= |s| && r == s[..|r|]
    ensures r == [] || !IsJsWhitespace(r[|r| - 1])
    ensures AllWhitespace(s[|r|..])
  {
    if s != [] && IsJsWhitespace(s[|s| - 1]) then TrimEnd(s[..|s| - 1]) else s
  }

  /** `s.trim()`: empty exactly for blank strings, otherwise starting and
      ending with a non-whitespace character; `TrimIsMiddle` says which
      characters it keeps. */
  function Trim(s: string): (r: string)
    ensures |r| <= |s|
    ensures r == [] <==> AllWhitespace(s)
    ensures r == [] || (!IsJsWhitespace(r[0]) && !IsJsWhitespace(r[|r| - 1]))
  {
    var t := TrimStart(s);
    var r := TrimEnd(t);
    assert r == [] ==> AllWhitespace(s) by {
      if r == [] {
        assert s == s[..|s| - |t|] + t;
        assert t[|r|..] == t;
      }
    }
    r
  }

  /** What `trim()` keeps is the middle of `s`: cutting off the whitespace
      before and after it gives `Trim(s)`. */
  lemma TrimIsMiddle(s: string)
    ensures var r := Trim(s);
      exists i :: 0 <= i <= |s| - |r| && r == s[i..i + |r|]
                  && AllWhitespace(s[..i]) && AllWhitespace(s[i + |r|..])
  {
    var t := TrimStart(s);
    var r := TrimEnd(t);
    assert Trim(s) == r;
    MiddleOf(s, t, r);
  }

  lemma MiddleOf(s: string, t: string, r: string)
    requires |t| <= |s| && t == s[|s| - |t|..] && AllWhitespace(s[..|s| - |t|])
    requires |r| <= |t| && r == t[..|r|] && AllWhitespace(t[|r|..])
    ensures exists i :: 0 <= i <= |s| - |r| && r == s[i..i + |r|]
                        && AllWhitespace(s[..i]) && AllWhitespace(s[i + |r|..])
  {
    var i := |s| - |t|;
    assert s[i + |r|..] == t[|r|..];
  }

  /** Trimming twice is trimming once. */
  lemma TrimIdempotent(s: string)
    ensures Trim(Trim(s)) == Trim(s)
  {
    var r := Trim(s);
    assert TrimStart(r) == r;
    assert TrimEnd(r) == r;
  }

  /** The truthiness of a string in JavaScript: only `''` is falsy. */
  predicate Truthy(s: string) {
    s != []
  }

  /** `t` occurs in `s` at some offset: `s.includes(t)`. The empty string
      occurs everywhere, and nothing longer than `s` occurs in it. */
  predicate Contains(s: string, t: string): (r: bool)
    ensures t == [] ==> r
    ensures r ==> |t| <= |s|
  {
    assert t == [] ==> s[0..][..|t|] == t;
    exists i :: 0 <= i <= |s| - |t| && s[i..][..|t|] == t
  }

  function LowerChar(c: char): char {
    if 'A' <= c <= 'Z' then (c as int + 32) as char else c
  }

  /** `s.toLowerCase()` over the ASCII letters. */
  function ToLower(s: string): (r: string)
    ensures |r| == |s|
    ensures forall i :: 0 <= i < |s| ==> r[i] == LowerChar(s[i])
  {
    if s == [] then [] else [LowerChar(s[0])] + ToLower(s[1..])
  }

  /** Lower-casing twice is lower-casing once. */
  lemma ToLowerIdempotent(s: string)
    ensures ToLower(ToLower(s)) == ToLower(s)
  {
    var r := ToLower(s);
    assert forall i :: 0 <= i < |r| ==> LowerChar(r[i]) == r[i];
  }

  predicate IsDigit(c: char) {
    '0' <= c <= '9'
  }

  predicate AllDigits(s: string) {
    forall i :: 0 <= i < |s| ==> IsDigit(s[i])
  }

  function DigitChar(d: nat): char
    requires d < 10
  {
    ('0' as int + d) as char
  }

  function DigitValue(c: char): nat
    requires IsDigit(c)
  {
    c as int - '0' as int
  }

  /** `String(n)` for a non-negative integer: its decimal digits, without
      leading zeros. */
  function NatToString(n: nat): (r: string)
    ensures r != [] && AllDigits(r)
    ensures |r| > 1 ==> r[0] != '0'
    ensures n < 10 <==> |r| == 1
  {
    if n < 10 then [DigitChar(n)] else NatToString(n / 10) + [DigitChar(n % 10)]
  }

  /** Reads a string of decimal digits back as a number. */
  function ParseNat(s: string): nat
    requires AllDigits(s)
  {
    if s == [] then 0 else 10 * ParseNat(s[..|s| - 1]) + DigitValue(s[|s| - 1])
  }

  /** Decimal rendering round-trips. */
  lemma {:induction false} ParseNatToString(n: nat)
    ensures ParseNat(NatToString(n)) == n
  {
    var r := NatToString(n);
    if n >= 10 {
      ParseNatToString(n / 10);
      assert r[..|r| - 1] == NatToString(n / 10);
    }
  }

  /** `String(n)` for any integer: a minus sign for negative numbers, then
      the decimal digits of the magnitude. */
  function IntToString(n: int): (r: string)
    ensures r != []
    ensures n < 0 <==> r[0] == '-'
    ensures n >= 0 ==> AllDigits(r) && ParseNat(r) == n
    ensures n < 0 ==> AllDigits(r[1..]) && ParseNat(r[1..]) == -n
    ensures n >= 0 && |r| > 1 ==> r[0] != '0'
    ensures n < 0 ==> |r| >= 2 && (|r| > 2 ==> r[1] != '0')
  {
    if n < 0 then
      var d := NatToString(-n);
      ParseNatToString(-n);
      assert ("-" + d)[1..] == d;
      "-" + d
    else
      ParseNatToString(n);
      NatToString(n)
  }

  /** Different integers render differently. */
  lemma IntToStringInjective(a: int, b: int)
    requires IntToString(a) == IntToString(b)
    ensures a == b
  {
    if a < 0 {
      assert ParseNat(IntToString(a)[1..]) == -a;
    }
  }

  /** Four-digit numbers render as four characters. */
  lemma NatToStringFourDigits(n: nat)
    requires 1000 <= n < 10000
    ensures |NatToString(n)| == 4
  {
    var a := n / 10;
    var b := a / 10;
    var c := b / 10;
    assert |NatToString(c)| == 1;
    assert NatToString(b) == NatToString(c) + [DigitChar(b % 10)];
    assert NatToString(a) == NatToString(b) + [DigitChar(a % 10)];
  }

  /** `String(n).padStart(2, '0')` for a non-negative number. */
  function PadTwo(n: nat): (r: string)
    ensures |r| >= 2 && AllDigits(r)
    ensures ParseNat(r) == n
    ensures n < 100 ==> |r| == 2
  {
    var s := NatToString(n);
    ParseNatToString(n);
    if |s| >= 2 then s
    else
      assert ParseNat("0" + s) == ParseNat(s) by {
        assert ("0" + s)[..1] == "0";
      }
      "0" + s
  }
}
